=== FILE: README.md ===
# Resume pipeline — a verified model of its decision rules

The program is an HR resume assistant built as a Streamlit app. Its upload page runs a
four-stage batch pipeline over the uploaded resume files:

1. Parse every upload into a JSON artifact.
2. Standardize every parsed artifact through a language-model backend.
3. Check the `name` of every listed standardized record and repair it through an OCR
   re-parse. A record is listed once per upload sharing its stem, so it can be repaired
   more than once (see "## Findings").
4. Write every standardized record to a MongoDB store.

Around the pipeline sit a few pure rules: the session reset when the uploader's contents
change, the database page's search query, the "Skills" cell of the resume table, the
accepted-candidates filter of the job matcher, and `convert_objectid_to_str`.

This Dafny project models those rules and the stages' bookkeeping as pure functions over
explicit data. It proves, among other things:

- when a record is sent to repair, is left alone, or makes the check raise;
- that the repair pass re-parses the first upload sharing the artifact's stem;
- which uploads each stage counts and lists, and that the parse, standardize and repair
  counts never exceed their batch (the store stage's list, as written, can: see
  "## Findings");
- that the standardize stage reuses existing standardized outputs and never overwrites
  them (the repair pass does overwrite the records it repairs);
- that the session resets exactly when the multiset of uploaded names changes;
- that the search query encodes exactly what the search means;
- that the ObjectId conversion is the unique ObjectId replacement and is idempotent.

Modules, one per file:

| module | file | what it holds |
|---|---|---|
| `Wrappers` | wrappers.dfy | `Option` |
| `Json` | json.dfy | JSON-like values, Python truthiness, `dict.get`, item assignment |
| `Strings` | strings.dfy | `str.isspace`, `str.split()`, `not s.strip()`, ASCII `lower`, `join` |
| `Files` | files.dfy | pathlib `suffix`/`stem`, artifact names, the original-file lookup |
| `NameCheck` | names.dfy | the three-way name rule of the repair pass |
| `ObjectIds` | objectids.dfy | `convert_objectid_to_str` |
| `Ordering` | ordering.dfy | Python string order and `sorted` |
| `Session` | session.dfy | the upload page's session state and its reset |
| `Batch` | batch.dfy | selection of counted entries; a directory replayed through a stage's writes |
| `Stages` | stages.dfy | the four stages, one entry at a time and as whole loops |
| `Pipeline` | pipeline.dfy | the "Process Resumes" button: the four stages in order |
| `Search` | search.dfy | the "Search by Field" query |
| `Display` | display.dfy | the "Skills" cell and the accepted-candidates filter |

## Model

| member | source | states |
|---|---|---|
| Json.Get | main.py:228-229 | `d.get(k)` is `None` exactly when `k` is not a key, and otherwise a value stored under `k` |
| Json.Set | main.py:169-170 | item assignment stores the value under its key, changes no other key, and keeps key order (existing key) or appends (new key) |
| Strings.LeadingSpaces | main.py:326 | the count of leading whitespace: everything before it is whitespace, the character at it is not |
| Strings.Words | main.py:326 | `split()` yields non-empty whitespace-free words, and yields none exactly for a blank string |
| Strings.FirstWordPosition | main.py:326 | the first word of a non-blank string starts after its leading whitespace and runs to the next whitespace or the end |
| Strings.FirstWordShort | main.py:326 | `len(s.split()[0]) < 2` holds exactly when the first non-whitespace character stands alone |
| Strings.Lower | main.py:159 | lower-casing changes exactly the ASCII capitals, character by character |
| Files.LastDot | main.py:159 | the position of the last dot, or none when the name has no dot |
| Files.StemOfDotted | main.py:172 | a name made of a stem, a dot and an extension without dots has that stem and that suffix |
| Files.StemAndSuffix | main.py:159-172 | stem and suffix split the name; a suffix is empty or a dot plus at least one character |
| Files.ArtifactStem | main.py:172 | an artifact named after an upload has the upload's stem and the suffix `.json` |
| Files.SharedArtifact | main.py:172 | two uploads write the same artifact exactly when their stems agree |
| Files.FindOriginal | main.py:331-335 | the lookup finds the first upload with the stem, and finds none exactly when no upload has it |
| Files.OriginalOfArtifact | main.py:331-339 | for the artifact of any named upload the lookup succeeds, at or before that upload, on one sharing the artifact |
| NameCheck.StringNameVerdict | main.py:326 | a string name is repaired iff it is empty or its first word is one character, raises iff it is blank but not empty, and is valid otherwise |
| NameCheck.RepairIff | main.py:322-328 | a record is sent to repair exactly when it is a dict whose name is missing, falsy, or starts with a one-character word |
| NameCheck.ErrorIff | main.py:322-326 | the check raises exactly for a non-dict record, or a truthy name that is not a string or is blank |
| NameCheck.MissingAndBlankExamples | main.py:326 | missing, null and empty names go to repair; a blank name raises |
| NameCheck.InitialOnlyExample | main.py:326 | a name whose first word is an initial goes to repair, despite leading whitespace |
| NameCheck.ProperNameExample | main.py:326 | a two-word name with a four-letter first word passes |
| ObjectIds.Convert | main.py:266-276 | the conversion keeps list lengths and dict keys |
| ObjectIds.ConvertIsReplacement | main.py:266-276 | a tree is the conversion's result exactly when it is the input with every ObjectId leaf replaced by its string, all else identical |
| ObjectIds.ConvertRemovesObjectIds | main.py:957-965 | no ObjectId survives the conversion |
| ObjectIds.ConvertIdempotent | main.py:266-276 | converting twice equals converting once |
| Ordering.Sort | main.py:609 | `sorted` returns a sorted permutation of its input |
| Ordering.SortedUnique | main.py:609 | two sorted lists with the same elements are equal |
| Ordering.SortEqualIff | main.py:609 | sorted forms are equal exactly when the lists are equal as multisets |
| Session.OnUploads | main.py:607-616 | an empty uploader changes nothing; otherwise the state resets to fresh exactly when the uploaded names differ as a multiset from the remembered ones |
| Session.ReorderKeepsProgress | main.py:607-616 | re-rendering with the same names in any order keeps all progress |
| Batch.Select | main.py:176-177 | the listed entries number exactly the count of set flags |
| Batch.SelectMembers | main.py:176-177 | an entry is listed exactly when some position holding it is flagged |
| Batch.LastWriteWins | main.py:172-174 | a file holds the last write made to it |
| Batch.UnwrittenUnchanged | main.py:216-222 | a file nobody writes keeps its contents |
| Stages.ParseFile | main.py:158-181 | an upload is skipped as unsupported exactly when its lower-cased suffix is not supported, yields nothing exactly when the parser returns a falsy value, and is parsed exactly when the parser returns a non-empty dict; the record is that dict plus the timestamp and the upload's name, all else unchanged |
| Stages.ParseAllAt | main.py:149-181 | the batch gives every upload exactly the fate its own file gives it |
| Stages.ParseEach | main.py:149-186 | the loop lists exactly the parsed uploads' artifacts in upload order, counts them, and leaves each artifact holding the last record written to it |
| Stages.ProcessUploadedFiles | main.py:135-186 | the parse stage: the counted list is the parsed uploads' artifacts, the count is its length and at most the number of uploads |
| Stages.ParsedAreSupported | main.py:159-177 | every listed artifact belongs to a supported upload that parsed to a non-empty dict, and every such upload's artifact is listed |
| Stages.StandardizeFresh | main.py:224-258 | a missing output: blank content is skipped; the backend is consulted exactly for a readable artifact with non-blank text, and such an artifact is standardized exactly when the backend answers with a dict; the record is that answer with the timestamp and the source artifact added, and with the upload name the artifact carries, or else the answer's own `original_filename` |
| Stages.StandardizeAllAt | main.py:216-222 | an artifact whose output exists when it is reached is reused without a backend call; any other is attempted |
| Stages.StandardizeEach | main.py:210-263 | the loop lists exactly the reused and freshly standardized artifacts, in order, counts them, and writes exactly the fresh records |
| Stages.StandardizeResumes | main.py:188-264 | without a standardizer nothing is listed and the stage is not complete; otherwise it completes and lists and counts as above, the count at most the number of parsed artifacts |
| Stages.StandardizeKeepsExisting | main.py:216-222 | no output that existed is removed or overwritten |
| Stages.StandardizeRerun | main.py:216-222 | over outputs that all exist, every artifact is reused and listed once, and nothing is written |
| Stages.ProvenanceForwarded | main.py:249-250 | the standardized record of a parsed upload names that upload as its original file, as long as the artifact still holds that upload's parse record, that is, no later upload sharing its stem overwrote it |
| Stages.Reprocess | main.py:341-372 | the OCR re-parse: an empty result is reported; the record is repaired exactly when a standardizer exists, the re-parse gave a non-empty dict, and the backend answers its content and links with a dict; the repaired record is that answer, naming the upload as its source and original file and stamped with the time |
| Stages.RepairFile | main.py:318-377 | a record is kept iff its name is valid, reported iff unreadable or the check raises, sent to repair iff its name needs it; a repair reprocesses the first upload with the record's stem, and is reported when there is none |
| Stages.RepairAllAt | main.py:318-377 | each record is judged on what its file holds when the loop reaches it |
| Stages.RepairEach | main.py:318-379 | the loop counts exactly the records sent to repair, failed repairs included, and writes exactly the repaired records |
| Stages.ValidateAndReprocess | main.py:315-379 | the validate stage: outcomes as above, the count at most the number of records |
| Stages.RepairOnce | main.py:318-374 | a record listed once is judged on its standardized contents and ends as it was or as its single repair result |
| Stages.RepairListedTwice | main.py:318-374 | a record listed twice is judged first on its standardized contents, then on what the first judgement left in its file |
| Stages.ParsedTwice | main.py:150-176 | two uploads that both parse into the same artifact name are both listed under it, and the file holds the later upload's record |
| Stages.StandardizeListedTwice | main.py:210-255 | an artifact listed twice into an empty output directory is attempted once when the attempt succeeds (the second entry is reused) and meets the same fate twice otherwise |
| Stages.StandardizedTwice | main.py:210-255 | an artifact listed twice whose first attempt succeeds is listed twice in `standardized_files` and its output holds the first attempt's record |
| Stages.SharedParseListsTwice | main.py:150-176 | as written: `cv.pdf` and `cv.docx` both parse, so `processed_files` lists `cv.json` twice and `cv.json` holds non-blank text |
| Stages.SharedStandardizeListsTwice | main.py:210-255 | as written: from an empty output directory, `cv.json` is standardized once and reused once, so `standardized_files` lists it twice, holding a record without a name |
| Stages.SharedStemRepairedTwice | main.py:318-374 | as written: from the two uploads through the parse and standardize stages to the validate loop, `cv.json` is listed twice, repaired twice and counted twice when the backend's answer has no name |
| Stages.Distinct | main.py:318 | corrected: the listed records without repeats, with the same members, in the order of their first appearance |
| Stages.ValidateAndReprocessOnce | main.py:315-379 | corrected: the validate loop over the records without repeats; the records sent to repair number at most the distinct records |
| Stages.RepairDistinctOnce | main.py:318-374 | corrected: every distinct record is judged on its standardized contents and ends as it was or as its single repair result |
| Stages.SharedStemRepairedOnce | main.py:318-374 | corrected: in the shared-stem case the record is repaired and counted once |
| Stages.RepairKeepsFiles | main.py:318-369 | the repair pass neither adds nor removes output files |
| Stages.UploadToMongoAsWritten | main.py:278-313 | as written: without a store nothing changes; otherwise the artifacts that exist and that the store accepted are appended, in order, to whatever the list of uploaded files already held, and the reported count is their number |
| Stages.RepeatedUploadOvercounts | main.py:293-305 | pressing the button twice over one upload lists two uploaded files for a batch of one |
| Stages.UploadToMongo | main.py:278-313 | corrected: without a store nothing is listed; otherwise the listed files are exactly this run's stored artifacts, their number at most the batch size |
| Stages.UploadedAreStored | main.py:296-305 | a file is listed exactly when it exists and the store accepted it |
| Pipeline.ParseStage | main.py:623 | the parse stage lists only artifacts of supported uploads that parsed, at most one per upload |
| Pipeline.StandardizeStage | main.py:627 | the standardize stage completes iff the standardizer exists, lists only parsed artifacts, and keeps every existing output |
| Pipeline.ValidateStage | main.py:631 | the validate stage counts at most one attempt per listed entry, where a record is listed once per upload sharing its stem, and keeps the set of output files |
| Pipeline.ValidateStageOnce | main.py:315-379 | corrected: the validate stage counts at most one attempt per distinct record and keeps the set of output files |
| Pipeline.StoreStageAsWritten | main.py:634 | the store stage as written completes iff the store exists, appends this run's stored artifacts to the list it was given, and reports their number, at most the batch |
| Pipeline.StoreStage | main.py:278-313 | corrected: the store stage completes iff the store exists and lists only standardized artifacts, as many as it reports |
| Pipeline.EarlyStages | main.py:619-631 | the first three stages: parsing completes; standardizing completes iff the standardizer exists; each list holds only the previous stage's artifacts and is bounded by the uploads; listed artifacts come from supported uploads; uploader names and existing outputs survive |
| Pipeline.ProcessResumes | main.py:619-635 | one press as written: all of the above, storing completes iff the store exists, and the list of uploaded files is the list the session held followed by this run's stored artifacts, the count reporting only the latter |
| Pipeline.ProcessResumesCorrected | main.py:619-635 | one press with both stages corrected: all of the above, the records sent to repair number at most the distinct standardized records, and the uploaded list holds only standardized artifacts, as many as the reported count |
| Search.BuildQuery | main.py:789-796 | no query for an empty value; otherwise a one-field query on the chosen field |
| Search.DecodeEncode | main.py:790-796 | every criterion survives encoding and decoding |
| Search.EncodeDecode | main.py:790-796 | a document that decodes is the encoding of what it decodes to |
| Search.BuildQueryMeans | main.py:790-796 | the query is the encoding of: skills matched by exact element, every other field, dotted or not, by the value as a case-insensitive regex |
| Search.BuildQueryInjective | main.py:790-796 | two searches send the same query exactly when they search the same field for the same value |
| Display.SkillsCell | main.py:727 | a record without skills shows an empty cell; the cell fails exactly when the first three skills cannot be joined; otherwise it is those three joined by ", ", then "..." when there are more |
| Display.SkillsTruncated | main.py:727 | with more than three skills the cell is the cell of the first three followed by "..." |
| Display.FewSkillsShownInFull | main.py:727 | up to three string skills are all shown, in order, without "..." |
| Display.AcceptedTest | main.py:512 | the status test raises exactly when the candidate has no status, and passes exactly for the status "Accepted" |
| Display.FilterFailsIff | main.py:512 | a comprehension whose condition may raise fails exactly when the condition raises on some item |
| Display.AcceptedFailsIff | main.py:512 | the accepted list cannot be built exactly when some candidate has no status |
| Display.AcceptedKeepsMultiplicity | main.py:512 | the accepted list holds every accepted candidate as often as the results do, and nothing else |
| Display.AcceptedIdempotent | main.py:512 | filtering the accepted list again changes nothing |
| Display.AcceptedConcat | main.py:512 | the accepted candidates of two result lists are those of the first followed by those of the second |

## Left out

- The Streamlit interface is left out as presentation: widgets, messages, progress bars, CSS, the preview, download and delete flows, and the other pages.
- Files and directories are left out as I/O. A directory is a map from base file name to the JSON document it holds, and paths are base names.
- Stages.StandardizeFresh: `source_file` holds the artifact's base name, where the program stores its full path, because directories are not modelled.
- Stages.Reprocess: `source_file` holds the upload's name, where the program stores the temporary copy's full path, for the same reason.
- The temporary copies of uploads and the raw-answer log (main.py:155-157, 239-241, 343-345) are left out as writes that nothing in the model reads.
- The repair pass's rewrite of the parsed artifact (main.py:351-353) is left out, because no later stage reads the parsed directory.
- The parsers, the prompt, the backend call, answer cleaning, `json.loads` and the store's insert-or-update are opaque collaborators, because their code is not part of this model. They are function parameters; a raise becomes `None` or `false`.
- The supported-extension set is a parameter, because its definition is not part of this model.
- `datetime.now()` is left out as a clock: each stage stamps its records with one given string.
- `asyncio.run` and the event loop are left out: the stages are sequential.
- The standardizer's and the store's construction are modelled as readiness flags. The repair pass is assumed to see the same standardizer readiness as the standardize stage. Errors that escape the stages' handlers, such as a non-`ValueError` from the standardizer's constructor, would end the button press and are not modelled.
- Strings.Lower: only ASCII letters are lower-cased; Python's `lower` also maps other alphabets.
- Json.Get: a dict is an ordered field list that may repeat a key, and lookup returns the first; Python dicts never repeat keys.
- Floating-point numbers are not modelled. Numbers are integers, and progress fractions are left out.
- The resume table's other columns and the search results' display (main.py:722-726, 797-800) are left out, because they are presentation.
- Search.BuildQuery: the regex is the search value as typed, as in the program; the store's regex semantics are not modelled.
- The job matcher's scoring, the retailoring flow and the store's find and delete (main.py:391-511, 513-575, 862-955; the accepted filter at main.py:512 is modelled) are left out, because their logic lives in code that is not part of this model.

## Findings

| source | as written | input that shows it | evidently intended | confidence | as-written member | corrected member |
|---|---|---|---|---|---|---|
| main.py:278-305 | `upload_to_mongodb` appends to `st.session_state.uploaded_files` without clearing it first. The other stages reset their lists at their start (main.py:140, 191). | Pressing "Process Resumes" twice with the same single upload lists two uploaded files, so the status line reports 2 files for a batch of 1. | The list holds this run's stored artifacts, and its length is at most the batch size. | medium, not executed | Stages.UploadToMongoAsWritten, Stages.RepeatedUploadOvercounts, Pipeline.ProcessResumes | Stages.UploadToMongo, Stages.UploadedAreStored, Pipeline.ProcessResumesCorrected |
| main.py:318-374 | The validate loop judges every entry of `standardized_files`. Two uploads that share a stem share one artifact (main.py:172), so that artifact is listed twice, once freshly standardized and once reused (main.py:218-222). The loop then judges the record twice and can repair and count it twice. | Uploading `cv.pdf` and `cv.docx` whose record has no name, with a backend answer that still has no name: both entries are repaired and `reprocessed_count` is 2. | Each standardized record gets at most one repair pass per press. | medium, not executed | Stages.SharedStemRepairedTwice, Stages.RepairListedTwice, Pipeline.ValidateStage | Stages.ValidateAndReprocessOnce, Stages.RepairDistinctOnce, Stages.SharedStemRepairedOnce, Pipeline.ProcessResumesCorrected |

=== FILE: batch.dfy ===
/** Bookkeeping shared by the batch stages: which entries of a batch a stage counts as
    done, and what an artifact directory holds after the stage's writes. A directory is a
    map from file name to the JSON document in the file. */
module Batch {
  import opened Wrappers
  import opened Json

  /** The entries of `xs` whose flag is set, in order. */
  function Select<T>(xs: seq<T>, keep: seq<bool>): (r: seq<T>)
    requires |keep| == |xs|
    ensures |r| == Count(keep) <= |xs|
    decreases |xs|
  {
    if xs == [] then []
    else Select(xs[..|xs| - 1], keep[..|keep| - 1]) + (if keep[|keep| - 1] then [xs[|xs| - 1]] else [])
  }

  /** The number of flags set. */
  function Count(keep: seq<bool>): (n: nat)
    ensures n <= |keep|
    decreases |keep|
  {
    if keep == [] then 0
    else Count(keep[..|keep| - 1]) + (if keep[|keep| - 1] then 1 else 0)
  }

  /** Everything selected is an entry of the list. */
  lemma SelectSubset<T>(xs: seq<T>, keep: seq<bool>)
    requires |keep| == |xs|
    ensures forall x :: x in Select(xs, keep) ==> x in xs
  {
    SelectMembers(xs, keep);
  }

  /** Exactly the flagged entries are selected: every flagged entry occurs in the
      selection, and everything in the selection is a flagged entry. */
  lemma {:induction false} SelectMembers<T>(xs: seq<T>, keep: seq<bool>)
    requires |keep| == |xs|
    ensures forall i :: 0 <= i < |xs| && keep[i] ==> xs[i] in Select(xs, keep)
    ensures forall x :: x in Select(xs, keep) ==> exists i :: 0 <= i < |xs| && keep[i] && xs[i] == x
    decreases |xs|
  {
    if xs != [] {
      var n := |xs| - 1;
      SelectMembers(xs[..n], keep[..n]);
      forall i | 0 <= i < n && keep[i]
        ensures xs[i] in Select(xs, keep)
      {
        assert xs[..n][i] == xs[i];
      }
      forall x | x in Select(xs, keep)
        ensures exists i :: 0 <= i < |xs| && keep[i] && xs[i] == x
      {
        if x in Select(xs[..n], keep[..n]) {
          var i :| 0 <= i < n && keep[..n][i] && xs[..n][i] == x;
          assert keep[i] && xs[i] == x;
        }
      }
    }
  }

  /** When every flag is set, everything is selected. */
  lemma {:induction false} SelectAll<T>(xs: seq<T>, keep: seq<bool>)
    requires |keep| == |xs|
    requires forall i :: 0 <= i < |keep| ==> keep[i]
    ensures Select(xs, keep) == xs
    decreases |xs|
  {
    if xs != [] {
      var n := |xs| - 1;
      SelectAll(xs[..n], keep[..n]);
      assert xs[..n] + [xs[n]] == xs;
    }
  }

  /** `d.get(p)` on a directory: the document in file `p`, if the file exists. */
  function Lookup(dir: map<string, Value>, p: string): (r: Option<Value>)
    ensures r.Some? <==> p in dir
    ensures r.Some? ==> r.value == dir[p]
  {
    if p in dir then Some(dir[p]) else None
  }

  /** The directory after the first `n` entries of a batch, in order: entry `k` writes
      `writes[k]`, if anything, to the file `paths[k]`. */
  function Replay(dir: map<string, Value>, paths: seq<string>, writes: seq<Option<Value>>, n: nat): map<string, Value>
    requires n <= |paths| && n <= |writes|
    decreases n
  {
    if n == 0 then dir
    else
      var d := Replay(dir, paths, writes, n - 1);
      if writes[n - 1].Some? then d[paths[n - 1] := writes[n - 1].value] else d
  }

  /** Entry `k` writes file `p`. */
  predicate Writes(paths: seq<string>, writes: seq<Option<Value>>, k: nat, p: string)
    requires k < |paths| && k < |writes|
  {
    paths[k] == p && writes[k].Some?
  }

  /** A file no entry before `n` writes is as it was. */
  lemma {:induction false} UnwrittenUnchanged(dir: map<string, Value>, paths: seq<string>, writes: seq<Option<Value>>, n: nat, p: string)
    requires n <= |paths| && n <= |writes|
    requires forall k :: 0 <= k < n ==> !Writes(paths, writes, k, p)
    ensures Lookup(Replay(dir, paths, writes, n), p) == Lookup(dir, p)
    decreases n
  {
    if n > 0 {
      assert !Writes(paths, writes, n - 1, p);
      UnwrittenUnchanged(dir, paths, writes, n - 1, p);
    }
  }

  /** The last write before `n` to a file is what the file holds. */
  lemma {:induction false} LastWriteWins(dir: map<string, Value>, paths: seq<string>, writes: seq<Option<Value>>, n: nat, k: nat)
    requires k < n <= |paths| && n <= |writes|
    requires writes[k].Some?
    requires forall j :: k < j < n ==> !Writes(paths, writes, j, paths[k])
    ensures Lookup(Replay(dir, paths, writes, n), paths[k]) == writes[k]
    decreases n
  {
    if n - 1 > k {
      assert !Writes(paths, writes, n - 1, paths[k]);
      LastWriteWins(dir, paths, writes, n - 1, k);
    }
  }

  /** Writes only ever add files: every file that existed still exists. */
  lemma {:induction false} ReplayKeepsFiles(dir: map<string, Value>, paths: seq<string>, writes: seq<Option<Value>>, n: nat)
    requires n <= |paths| && n <= |writes|
    ensures dir.Keys <= Replay(dir, paths, writes, n).Keys
    ensures forall p :: p in Replay(dir, paths, writes, n) ==> p in dir || exists k :: 0 <= k < n && Writes(paths, writes, k, p)
    decreases n
  {
    if n > 0 {
      ReplayKeepsFiles(dir, paths, writes, n - 1);
      if writes[n - 1].Some? {
        assert Writes(paths, writes, n - 1, paths[n - 1]);
      }
    }
  }

  /** Replaying a longer history agrees with a shorter one on its common prefix. */
  lemma {:induction false} ReplayPrefix(dir: map<string, Value>, paths: seq<string>, writes: seq<Option<Value>>, writes': seq<Option<Value>>, n: nat)
    requires n <= |paths| && n <= |writes| && n <= |writes'|
    requires writes[..n] == writes'[..n]
    ensures Replay(dir, paths, writes, n) == Replay(dir, paths, writes', n)
    decreases n
  {
    if n > 0 {
      assert writes[n - 1] == writes[..n][n - 1];
      assert writes'[n - 1] == writes'[..n][n - 1];
      assert writes[..n - 1] == writes[..n][..n - 1];
      assert writes'[..n - 1] == writes'[..n][..n - 1];
      ReplayPrefix(dir, paths, writes, writes', n - 1);
    }
  }

  /** Selecting from one more entry of a batch: the shorter selection, then the new
      entry if its flag is set. */
  lemma SelectStep<T>(xs: seq<T>, keep: seq<bool>, i: nat)
    requires |keep| == i + 1 && i < |xs|
    ensures Select(xs[..i + 1], keep) == Select(xs[..i], keep[..i]) + (if keep[i] then [xs[i]] else [])
  {
    assert xs[..i + 1][..i] == xs[..i];
  }

  /** Replaying one more entry of a batch. */
  lemma ReplaySnoc(dir: map<string, Value>, paths: seq<string>, writes: seq<Option<Value>>, w: Option<Value>)
    requires |writes| < |paths|
    ensures var d := Replay(dir, paths, writes, |writes|);
      Replay(dir, paths, writes + [w], |writes| + 1) == if w.Some? then d[paths[|writes|] := w.value] else d
  {
    assert (writes + [w])[..|writes|] == writes[..|writes|];
    ReplayPrefix(dir, paths, writes + [w], writes, |writes|);
  }

  /** Replaying depends on the paths only through the entries replayed. */
  lemma {:induction false} ReplayPathsPrefix(dir: map<string, Value>, paths: seq<string>, paths': seq<string>, writes: seq<Option<Value>>, n: nat)
    requires n <= |paths| && n <= |paths'| && n <= |writes|
    requires paths[..n] == paths'[..n]
    ensures Replay(dir, paths, writes, n) == Replay(dir, paths', writes, n)
    decreases n
  {
    if n > 0 {
      assert paths[n - 1] == paths[..n][n - 1];
      assert paths'[n - 1] == paths'[..n][n - 1];
      assert paths[..n - 1] == paths[..n][..n - 1];
      assert paths'[..n - 1] == paths'[..n][..n - 1];
      ReplayPathsPrefix(dir, paths, paths', writes, n - 1);
    }
  }

  /** A replay without writes leaves the directory as it was. */
  lemma {:induction false} ReplayNoWrites(dir: map<string, Value>, paths: seq<string>, writes: seq<Option<Value>>, n: nat)
    requires n <= |paths| && n <= |writes|
    requires forall k :: 0 <= k < n ==> writes[k].None?
    ensures Replay(dir, paths, writes, n) == dir
    decreases n
  {
    if n > 0 {
      ReplayNoWrites(dir, paths, writes, n - 1);
    }
  }
}

=== FILE: display.dfy ===
/** Two views of stored records: the "Skills" cell of the resume table (main.py:727) and
    the accepted candidates of a job match (main.py:512). Where Python would raise, the
    functions return `None`. */
module Display {
  import opened Wrappers
  import opened Json
  import opened Strings

  /** `xs[:3]`. */
  function Take3<T>(xs: seq<T>): (r: seq<T>)
    ensures |r| <= 3 && |r| <= |xs|
    ensures r == xs[..|r|]
    ensures |xs| <= 3 ==> r == xs
  {
    if |xs| <= 3 then xs else xs[..3]
  }

  /** The one-character strings of a string, as iterating over it gives them. */
  function Chars(s: string): (r: seq<string>)
    ensures |r| == |s|
    ensures forall i :: 0 <= i < |s| ==> r[i] == [s[i]]
  {
    seq(|s|, i requires 0 <= i < |s| => [s[i]])
  }

  /** What `", ".join(...)` can join from the first three skills: the texts of a list of
      strings, or the characters of a string. */
  function Shown(skills: Value): Option<seq<string>> {
    match skills
    case List(xs) => if AllStrings(Take3(xs)) then Some(Texts(Take3(xs))) else None
    case Str(s) => Some(Chars(Take3(s)))
    case _ => None
  }

  /** The number of skills `len(...)` counts. */
  function Size(skills: Value): nat {
    match skills
    case List(xs) => |xs|
    case Str(s) => |s|
    case _ => 0
  }

  /** The "Skills" cell of a record: the first three skills joined by ", ", then "..." when
      there are more. A record without skills shows an empty cell; one whose skills are
      neither a list nor a string, or whose first three skills are not all strings, makes
      the table fail. */
  function SkillsCell(res: seq<Field>): (r: Option<string>)
    ensures "skills" !in Keys(res) ==> r == Some("")
    ensures var skills := GetOr(res, "skills", List([]));
      r.None? <==> !(skills.List? || skills.Str?) || (skills.List? && !AllStrings(Take3(skills.items)))
    ensures var skills := GetOr(res, "skills", List([]));
      skills.List? && AllStrings(Take3(skills.items)) ==>
        r == Some(Join(", ", Texts(Take3(skills.items))) + (if |skills.items| > 3 then "..." else ""))
    ensures var skills := GetOr(res, "skills", List([]));
      skills.Str? ==> r == Some(Join(", ", Chars(Take3(skills.s))) + (if |skills.s| > 3 then "..." else ""))
  {
    var skills := GetOr(res, "skills", List([]));
    assert "skills" !in Keys(res) ==> Shown(skills) == Some([]);
    match Shown(skills)
    case None => None
    case Some(parts) =>
      var more := if Size(skills) > 3 then "..." else "";
      assert "skills" !in Keys(res) ==> parts == [] && Join(", ", parts) == "" && more == "";
      assert "skills" !in Keys(res) ==> Join(", ", parts) + more == "";
      Some(Join(", ", parts) + more)
  }

  /** A record with more than three skills shows what a record with only its first three
      would show, followed by "...": the cell depends on the first three skills alone. */
  lemma SkillsTruncated(res: seq<Field>, xs: seq<Value>)
    requires Get(res, "skills") == Some(List(xs))
    requires |xs| > 3
    ensures var short := SkillsCell([Field("skills", List(xs[..3]))]);
      && (SkillsCell(res).Some? <==> short.Some?)
      && (short.Some? ==> SkillsCell(res) == Some(short.value + "..."))
  {
    var short := [Field("skills", List(xs[..3]))];
    assert Get(short, "skills") == Some(List(xs[..3]));
    assert GetOr(short, "skills", List([])) == List(xs[..3]);
    assert GetOr(res, "skills", List([])) == List(xs);
    assert Take3(xs[..3]) == Take3(xs);
    assert Shown(List(xs[..3])) == Shown(List(xs));
    if Shown(List(xs)).Some? {
      var j := Join(", ", Shown(List(xs)).value);
      assert SkillsCell(short) == Some(j + "");
      assert j + "" == j;
    }
  }

  /** With at most three string skills, the cell lists them all, in order, without "...". */
  lemma FewSkillsShownInFull(res: seq<Field>, xs: seq<Value>)
    requires Get(res, "skills") == Some(List(xs))
    requires |xs| <= 3 && AllStrings(xs)
    ensures SkillsCell(res) == Some(Join(", ", Texts(xs)))
  {
    assert GetOr(res, "skills", List([])) == List(xs);
    assert Take3(xs) == xs;
    assert Shown(List(xs)) == Some(Texts(xs));
    var j := Join(", ", Texts(xs));
    assert j + "" == j;
  }

  /** `c["status"]`, or `None` when Python would raise: the candidate is not a dict, or
      has no status. */
  function Status(c: Value): (r: Option<Value>)
    ensures r.Some? <==> c.Dict? && "status" in Keys(c.fields)
  {
    if c.Dict? then Get(c.fields, "status") else None
  }

  /** `c["status"] == "Accepted"`, or `None` when evaluating it raises. */
  function AcceptedTest(c: Value): (r: Option<bool>)
    ensures r.None? <==> Status(c).None?
    ensures r == Some(true) <==> Status(c) == Some(Str("Accepted"))
  {
    match Status(c)
    case None => None
    case Some(v) => Some(v == Str("Accepted"))
  }

  /** A list comprehension with a condition that may raise: the items that pass `test`,
      in order, or `None` as soon as the test raises on some item. */
  function Filter<T>(xs: seq<T>, test: T -> Option<bool>): (r: Option<seq<T>>)
    ensures r.Some? ==> |r.value| <= |xs|
  {
    if xs == [] then Some([])
    else
      var rest := Filter(xs[1..], test);
      if test(xs[0]).None? || rest.None? then None
      else Some((if test(xs[0]).value then [xs[0]] else []) + rest.value)
  }

  /** The filter fails exactly when the test raises on some item. */
  lemma {:induction false} FilterFailsIff<T>(xs: seq<T>, test: T -> Option<bool>)
    ensures Filter(xs, test).None? <==> exists i :: 0 <= i < |xs| && test(xs[i]).None?
  {
    if xs != [] {
      FilterFailsIff(xs[1..], test);
      if Filter(xs[1..], test).None? {
        var j :| 0 <= j < |xs[1..]| && test(xs[1..][j]).None?;
        assert test(xs[j + 1]).None?;
      }
      if i :| 0 <= i < |xs| && test(xs[i]).None? {
        if i > 0 {
          assert test(xs[1..][i - 1]).None?;
        }
      }
    }
  }

  /** The filter of a list is the filter of its head followed by the filter of its tail. */
  lemma FilterCons<T>(x: T, rest: seq<T>, test: T -> Option<bool>)
    requires test(x).Some? && Filter(rest, test).Some?
    ensures Filter([x] + rest, test) == Some((if test(x).value then [x] else []) + Filter(rest, test).value)
  {
    assert ([x] + rest)[0] == x && ([x] + rest)[1..] == rest;
  }

  /** The filter keeps every passing item as often as it occurs, and no other. */
  lemma {:induction false} FilterMultiplicity<T>(xs: seq<T>, test: T -> Option<bool>, x: T)
    requires Filter(xs, test).Some?
    ensures test(x) == Some(true) ==> multiset(Filter(xs, test).value)[x] == multiset(xs)[x]
    ensures test(x) != Some(true) ==> multiset(Filter(xs, test).value)[x] == 0
  {
    if xs != [] {
      assert xs == [xs[0]] + xs[1..];
      FilterMultiplicity(xs[1..], test, x);
      FilterCons(xs[0], xs[1..], test);
    }
  }

  /** Filtering an already filtered list changes nothing. */
  lemma {:induction false} FilterIdempotent<T>(xs: seq<T>, test: T -> Option<bool>)
    requires Filter(xs, test).Some?
    ensures Filter(Filter(xs, test).value, test) == Filter(xs, test)
  {
    if xs != [] {
      FilterIdempotent(xs[1..], test);
      var rest := Filter(xs[1..], test).value;
      if test(xs[0]).value {
        FilterCons(xs[0], rest, test);
      } else {
        assert [] + rest == rest;
      }
    }
  }

  /** Filtering two lists one after the other is filtering their concatenation. */
  lemma {:induction false} FilterConcat<T>(a: seq<T>, b: seq<T>, test: T -> Option<bool>)
    requires Filter(a, test).Some? && Filter(b, test).Some?
    ensures Filter(a + b, test) == Some(Filter(a, test).value + Filter(b, test).value)
  {
    if a == [] {
      assert a + b == b;
      assert Filter(a, test).value + Filter(b, test).value == Filter(b, test).value;
    } else {
      assert test(a[0]).Some? && Filter(a[1..], test).Some?;
      var head: seq<T> := if test(a[0]).value then [a[0]] else [];
      var a1 := Filter(a[1..], test).value;
      var b1 := Filter(b, test).value;
      assert Filter(a, test) == Some(head + a1);
      FilterConcat(a[1..], b, test);
      assert a + b == [a[0]] + (a[1..] + b);
      FilterCons(a[0], a[1..] + b, test);
      assert head + (a1 + b1) == (head + a1) + b1;
    }
  }

  /** The accepted candidates of a match, in order; `None` when some candidate is not a
      dict or has no status, which makes the comprehension raise. */
  function AcceptedOnly(results: seq<Value>): (r: Option<seq<Value>>)
    ensures r.Some? ==> |r.value| <= |results|
  {
    Filter(results, AcceptedTest)
  }

  /** The accepted list cannot be built exactly when some candidate has no status. */
  lemma AcceptedFailsIff(results: seq<Value>)
    ensures AcceptedOnly(results).None? <==> exists i :: 0 <= i < |results| && Status(results[i]).None?
  {
    FilterFailsIff(results, AcceptedTest);
    if i :| 0 <= i < |results| && AcceptedTest(results[i]).None? {
      assert Status(results[i]).None?;
    }
  }

  /** The accepted list holds every accepted candidate as often as the match does, and
      nothing else. */
  lemma AcceptedKeepsMultiplicity(results: seq<Value>, c: Value)
    requires AcceptedOnly(results).Some?
    ensures multiset(AcceptedOnly(results).value)[c] == if Status(c) == Some(Str("Accepted")) then multiset(results)[c] else 0
  {
    FilterMultiplicity(results, AcceptedTest, c);
  }

  /** Filtering the accepted list again changes nothing. */
  lemma AcceptedIdempotent(results: seq<Value>)
    requires AcceptedOnly(results).Some?
    ensures AcceptedOnly(AcceptedOnly(results).value) == AcceptedOnly(results)
  {
    FilterIdempotent(results, AcceptedTest);
  }

  /** The accepted candidates of two lists are those of the first, then those of the second. */
  lemma AcceptedConcat(a: seq<Value>, b: seq<Value>)
    requires AcceptedOnly(a).Some? && AcceptedOnly(b).Some?
    ensures AcceptedOnly(a + b) == Some(AcceptedOnly(a).value + AcceptedOnly(b).value)
  {
    FilterConcat(a, b, AcceptedTest);
  }
}

=== FILE: files.dfy ===
/** Uploaded files and the names the pipeline derives from them. An upload is known by its
    file name; both intermediate artifacts of an upload (the parsed content and the
    standardized record) are named `<stem>.json`, and the repair pass finds the upload
    behind an artifact by comparing stems. File names are base names, as the uploader
    supplies them. */
module Files {
  import opened Wrappers

  datatype Upload = Upload(name: string, data: seq<bv8>)

  /** `name.rfind('.')`, as an option. */
  function LastDot(name: string): (r: Option<nat>)
    ensures r.Some? ==> r.value < |name| && name[r.value] == '.'
    ensures r.Some? ==> forall j :: r.value < j < |name| ==> name[j] != '.'
    ensures r.None? ==> forall j :: 0 <= j < |name| ==> name[j] != '.'
  {
    if name == [] then None
    else if name[|name| - 1] == '.' then Some(|name| - 1)
    else LastDot(name[..|name| - 1])
  }

  /** pathlib's rule: the last dot starts a suffix only when it is neither the first nor
      the last character of the name. */
  predicate HasSuffix(name: string) {
    var d := LastDot(name);
    d.Some? && 0 < d.value < |name| - 1
  }

  /** `Path(name).suffix`: from the last dot on, or empty. */
  function Suffix(name: string): string {
    if HasSuffix(name) then name[LastDot(name).value..] else ""
  }

  /** `Path(name).stem`: the name without its suffix. */
  function Stem(name: string): string {
    if HasSuffix(name) then name[..LastDot(name).value] else name
  }

  /** A name splits into its stem followed by its suffix; the suffix is empty or a dot and
      at least one further character, and the stem is empty only for the empty name. */
  lemma StemAndSuffix(name: string)
    ensures Stem(name) + Suffix(name) == name
    ensures Suffix(name) == "" || (|Suffix(name)| >= 2 && Suffix(name)[0] == '.')
    ensures Stem(name) == "" <==> name == ""
  {
    if HasSuffix(name) {
      var d := LastDot(name).value;
      assert name[..d] + name[d..] == name;
    }
  }

  /** A name made of a stem, a dot and an extension without dots has that stem and the
      dot and extension as its suffix. */
  lemma StemOfDotted(stem: string, ext: string)
    requires stem != "" && ext != "" && '.' !in ext
    ensures Stem(stem + "." + ext) == stem
    ensures Suffix(stem + "." + ext) == "." + ext
  {
    var name := stem + "." + ext;
    var d := LastDot(name);
    assert name[|stem|] == '.';
    assert d == Some(|stem|) by {
      if d.None? {
        assert false;
      }
    }
    assert name[..|stem|] == stem;
    assert name[|stem|..] == "." + ext;
  }

  /** The file name both intermediate artifacts of an upload are stored under. */
  function ArtifactName(name: string): string {
    Stem(name) + ".json"
  }

  /** The stem of an artifact is the stem of the upload it came from, so the repair pass,
      which reads the stem back off the artifact, looks for the right upload. */
  lemma {:induction false} ArtifactStem(name: string)
    requires name != ""
    ensures Stem(ArtifactName(name)) == Stem(name)
    ensures Suffix(ArtifactName(name)) == ".json"
  {
    StemAndSuffix(name);
    var s := Stem(name);
    var a := ArtifactName(name);
    assert a[|s|] == '.';
    var d := LastDot(a);
    assert d == Some(|s|) by {
      assert a[|a| - 1] == 'n' && a[|a| - 2] == 'o' && a[|a| - 3] == 's' && a[|a| - 4] == 'j';
      if d.None? {
        assert false;
      } else if d.value < |s| {
        assert false;
      } else if d.value > |s| {
        assert false;
      }
    }
    assert a[..|s|] == s;
    assert a[|s|..] == ".json";
  }

  /** Two uploads share an artifact exactly when their stems agree, so a later upload
      with the same stem overwrites an earlier one's artifacts. */
  lemma SharedArtifact(a: string, b: string)
    ensures ArtifactName(a) == ArtifactName(b) <==> Stem(a) == Stem(b)
  {
    if ArtifactName(a) == ArtifactName(b) {
      var x := ArtifactName(a);
      assert |Stem(a)| == |Stem(b)|;
      assert Stem(a) == x[..|Stem(a)|];
      assert Stem(b) == x[..|Stem(b)|];
    }
  }

  /** `next((f for f in uploads if Path(f.name).stem == stem), None)`: the position of the
      first upload with the given stem, or `None`. */
  function FindOriginal(uploads: seq<Upload>, stem: string): (r: Option<nat>)
    ensures r.Some? ==> r.value < |uploads| && Stem(uploads[r.value].name) == stem
    ensures r.Some? ==> forall j :: 0 <= j < r.value ==> Stem(uploads[j].name) != stem
    ensures r.None? <==> forall j :: 0 <= j < |uploads| ==> Stem(uploads[j].name) != stem
  {
    if uploads == [] then None
    else if Stem(uploads[0].name) == stem then Some(0)
    else match FindOriginal(uploads[1..], stem)
      case None => None
      case Some(k) => Some(k + 1)
  }

  /** For the artifact of any named upload, the lookup succeeds, and the upload it finds
      has that very artifact: the first upload that shares the stem. */
  lemma OriginalOfArtifact(uploads: seq<Upload>, i: nat)
    requires i < |uploads| && uploads[i].name != ""
    ensures var r := FindOriginal(uploads, Stem(ArtifactName(uploads[i].name)));
      r.Some? && r.value <= i && ArtifactName(uploads[r.value].name) == ArtifactName(uploads[i].name)
  {
    ArtifactStem(uploads[i].name);
    var r := FindOriginal(uploads, Stem(uploads[i].name));
    SharedArtifact(uploads[r.value].name, uploads[i].name);
  }
}

=== FILE: json.dfy ===
/** JSON-like documents as the application holds them: what `json.load` returns for an
    artifact file, what the store returns for a record, and what the program builds as a
    store query. A dict is an ordered list of fields, because Python dicts keep insertion
    order and the program assigns into them in place. */
module Json {
  import opened Wrappers

  datatype Value =
    | Null
    | Bool(b: bool)
    | Num(n: int)
    | Str(s: string)
    | ObjectId(hex: string)
    | List(items: seq<Value>)
    | Dict(fields: seq<Field>)

  datatype Field = Field(key: string, val: Value)

  /** Python truthiness: `None`, `False`, `0`, `""`, `[]` and `{}` are false, everything else true. */
  predicate Truthy(v: Value) {
    match v
    case Null => false
    case Bool(b) => b
    case Num(n) => n != 0
    case Str(s) => s != ""
    case ObjectId(_) => true
    case List(xs) => xs != []
    case Dict(fs) => fs != []
  }

  /** The keys of a dict, in order. */
  function Keys(fs: seq<Field>): (ks: seq<string>)
    ensures |ks| == |fs|
  {
    if fs == [] then [] else [fs[0].key] + Keys(fs[1..])
  }

  /** `d.get(k)`: the value under key `k`, or `None` when `k` is absent. */
  function Get(fs: seq<Field>, k: string): (r: Option<Value>)
    ensures r.None? <==> k !in Keys(fs)
    ensures r.Some? ==> Field(k, r.value) in fs
  {
    if fs == [] then None
    else if fs[0].key == k then Some(fs[0].val)
    else Get(fs[1..], k)
  }

  /** `d.get(k, default)`. */
  function GetOr(fs: seq<Field>, k: string, default: Value): (r: Value)
    ensures k !in Keys(fs) ==> r == default
    ensures k in Keys(fs) ==> Get(fs, k) == Some(r)
  {
    match Get(fs, k)
    case Some(v) => v
    case None => default
  }

  /** `d[k] = v`: replaces the value of an existing key where it stands, otherwise appends. */
  function Set(fs: seq<Field>, k: string, v: Value): (r: seq<Field>)
    ensures Get(r, k) == Some(v)
    ensures forall k' :: k' != k ==> Get(r, k') == Get(fs, k')
    ensures k in Keys(fs) ==> Keys(r) == Keys(fs)
    ensures k !in Keys(fs) ==> Keys(r) == Keys(fs) + [k]
  {
    if fs == [] then [Field(k, v)]
    else if fs[0].key == k then
      var r := [Field(k, v)] + fs[1..];
      assert r[1..] == fs[1..];
      r
    else
      var rest := Set(fs[1..], k, v);
      var r := [fs[0]] + rest;
      assert r[1..] == rest;
      r
  }

  /** `d[k1] = v1; d[k2] = v2` with two different keys. */
  function Set2(fs: seq<Field>, k1: string, v1: Value, k2: string, v2: Value): (r: seq<Field>)
    requires k1 != k2
    ensures Get(r, k1) == Some(v1) && Get(r, k2) == Some(v2)
    ensures forall k :: k != k1 && k != k2 ==> Get(r, k) == Get(fs, k)
  {
    Set(Set(fs, k1, v1), k2, v2)
  }

  /** `d[k1] = v1; d[k2] = v2; d[k3] = v3` with three different keys. */
  function Set3(fs: seq<Field>, k1: string, v1: Value, k2: string, v2: Value, k3: string, v3: Value): (r: seq<Field>)
    requires k1 != k2 && k1 != k3 && k2 != k3
    ensures Get(r, k1) == Some(v1) && Get(r, k2) == Some(v2) && Get(r, k3) == Some(v3)
    ensures forall k :: k != k1 && k != k2 && k != k3 ==> Get(r, k) == Get(fs, k)
  {
    Set(Set2(fs, k1, v1, k2, v2), k3, v3)
  }

  /** Every item is a string. */
  predicate AllStrings(xs: seq<Value>) {
    forall i :: 0 <= i < |xs| ==> xs[i].Str?
  }

  /** The texts of a list of strings. */
  function Texts(xs: seq<Value>): (r: seq<string>)
    requires AllStrings(xs)
    ensures |r| == |xs|
    ensures forall i :: 0 <= i < |xs| ==> r[i] == xs[i].s
  {
    seq(|xs|, i requires 0 <= i < |xs| => xs[i].s)
  }
}

=== FILE: names.dfy ===
/** The name-validity rule of the repair pass (main.py:326): a standardized record is sent
    for repair when its `name` is missing or falsy, or when the first whitespace-separated
    word of the name is shorter than two characters. The rule is written as one Python
    condition, so it has a third outcome: a name that is truthy but has no first word (a
    whitespace-only string) or is not a string makes the condition raise, and the
    enclosing handler reports an error instead of repairing the record. */
module NameCheck {
  import opened Wrappers
  import opened Json
  import opened Strings

  datatype Verdict =
    | Valid         // the record is left as it is
    | NeedsRepair   // the record goes through one repair pass
    | CheckError    // evaluating the rule raised; the record is reported, not repaired

  /** The rule applied to the result of `resume_data.get("name")`. */
  function CheckName(name: Option<Value>): Verdict {
    match name
    case None => NeedsRepair
    case Some(v) =>
      if !Truthy(v) then NeedsRepair
      else match v
        case Str(s) =>
          var ws := Words(s);
          if ws == [] then CheckError
          else if |ws[0]| < 2 then NeedsRepair
          else Valid
        case _ => CheckError
  }

  /** The rule applied to a whole loaded record; a record that is not a dict has no
      `.get` and raises. */
  function CheckRecord(doc: Value): Verdict {
    match doc
    case Dict(fs) => CheckName(Get(fs, "name"))
    case _ => CheckError
  }

  /** A string name is repaired exactly when it is empty or its first non-whitespace
      character stands alone; it raises exactly when it is non-empty and all whitespace;
      otherwise it is valid. */
  lemma StringNameVerdict(s: string)
    ensures CheckName(Some(Str(s))) == NeedsRepair <==> s == "" || (!Blank(s) && FirstWordIsSingle(s))
    ensures CheckName(Some(Str(s))) == CheckError <==> s != "" && Blank(s)
    ensures CheckName(Some(Str(s))) == Valid <==> !Blank(s) && !FirstWordIsSingle(s)
  {
    if !Blank(s) {
      FirstWordShort(s);
    }
  }

  /** A record goes to repair exactly when it is a dict whose name is missing, falsy, or a
      string whose first word is a single character. */
  lemma RepairIff(doc: Value)
    ensures CheckRecord(doc) == NeedsRepair <==>
      doc.Dict? &&
      var n := Get(doc.fields, "name");
      n.None? || !Truthy(n.value) || (n.value.Str? && !Blank(n.value.s) && FirstWordIsSingle(n.value.s))
  {
    if doc.Dict? {
      var n := Get(doc.fields, "name");
      if n.Some? && n.value.Str? {
        StringNameVerdict(n.value.s);
      }
    }
  }

  /** The evaluation raises exactly for a dict whose name is truthy but has no first word:
      a whitespace-only string, or a value that is not a string at all; and for a record
      that is not a dict. */
  lemma ErrorIff(doc: Value)
    ensures CheckRecord(doc) == CheckError <==>
      !doc.Dict? ||
      var n := Get(doc.fields, "name");
      n.Some? && Truthy(n.value) && (!n.value.Str? || Blank(n.value.s))
  {
    if doc.Dict? {
      var n := Get(doc.fields, "name");
      if n.Some? && n.value.Str? {
        StringNameVerdict(n.value.s);
      }
    }
  }

  /** Concrete cases: a missing, null or empty name goes to repair, and a blank name
      raises. */
  lemma MissingAndBlankExamples()
    ensures CheckRecord(Dict([])) == NeedsRepair
    ensures CheckRecord(Dict([Field("name", Null)])) == NeedsRepair
    ensures CheckRecord(Dict([Field("name", Str(""))])) == NeedsRepair
    ensures CheckRecord(Dict([Field("name", Str("   "))])) == CheckError
  {
    assert Blank("   ");
  }

  /** A name whose first word is a single letter goes to repair, leading whitespace
      notwithstanding. */
  lemma InitialOnlyExample()
    ensures CheckRecord(Dict([Field("name", Str("  J Doe"))])) == NeedsRepair
  {
    var short := "  J Doe";
    assert !Blank(short) by {
      assert !IsSpace(short[2]);
    }
    assert FirstWordIsSingle(short) by {
      assert Blank(short[..2]) && !IsSpace(short[2]) && IsSpace(short[3]);
    }
    StringNameVerdict(short);
  }

  /** A proper first name passes. */
  lemma ProperNameExample()
    ensures CheckRecord(Dict([Field("name", Str("Jane Doe"))])) == Valid
  {
    var proper := "Jane Doe";
    assert WordLength(" Doe") == 0;
    assert WordLength("e Doe") == 1 by {
      assert "e Doe"[1..] == " Doe";
    }
    assert WordLength("ne Doe") == 2 by {
      assert "ne Doe"[1..] == "e Doe";
    }
    assert WordLength("ane Doe") == 3 by {
      assert "ane Doe"[1..] == "ne Doe";
    }
    assert WordLength(proper) == 4 by {
      assert proper[1..] == "ane Doe";
    }
  }
}

=== FILE: objectids.dfy ===
/** `convert_objectid_to_str` (main.py:266-276, and its copy at main.py:957-965): a
    structure-preserving walk over a store record that replaces every ObjectId by its
    string form and leaves everything else, dict keys and list lengths included, as it
    was. */
module ObjectIds {
  import opened Json

  function Convert(v: Value): (r: Value)
    ensures v.List? ==> r.List? && |r.items| == |v.items|
    ensures v.Dict? ==> r.Dict? && Keys(r.fields) == Keys(v.fields)
  {
    match v
    case Dict(fs) => Dict(ConvertFields(fs))
    case List(xs) => List(ConvertItems(xs))
    case ObjectId(h) => Str(h)
    case _ => v
  }

  /** The list comprehension over a list's items. */
  function ConvertItems(xs: seq<Value>): (rs: seq<Value>)
    ensures |rs| == |xs|
    ensures forall i :: 0 <= i < |xs| ==> rs[i] == Convert(xs[i])
  {
    if xs == [] then [] else [Convert(xs[0])] + ConvertItems(xs[1..])
  }

  /** The dict comprehension over a dict's fields. */
  function ConvertFields(fs: seq<Field>): (rs: seq<Field>)
    ensures Keys(rs) == Keys(fs)
    ensures |rs| == |fs|
    ensures forall i :: 0 <= i < |fs| ==> rs[i] == Field(fs[i].key, Convert(fs[i].val))
  {
    if fs == [] then []
    else
      var rest := ConvertFields(fs[1..]);
      var rs := [Field(fs[0].key, Convert(fs[0].val))] + rest;
      assert rs[1..] == rest;
      rs
  }

  /** No ObjectId occurs anywhere in the tree. */
  predicate NoObjectIds(v: Value) {
    match v
    case ObjectId(_) => false
    case List(xs) => forall i :: 0 <= i < |xs| ==> NoObjectIds(xs[i])
    case Dict(fs) => forall i :: 0 <= i < |fs| ==> NoObjectIds(fs[i].val)
    case _ => true
  }

  /** `b` is `a` with every ObjectId leaf replaced by its string form: the same lists of the
      same lengths, the same dict keys in the same order, every other leaf unchanged. */
  predicate ReplacesObjectIds(a: Value, b: Value) {
    match a
    case ObjectId(h) => b == Str(h)
    case List(xs) =>
      b.List? && |b.items| == |xs| && forall i :: 0 <= i < |xs| ==> ReplacesObjectIds(xs[i], b.items[i])
    case Dict(fs) =>
      b.Dict? && |b.fields| == |fs| &&
      forall i :: 0 <= i < |fs| ==> b.fields[i].key == fs[i].key && ReplacesObjectIds(fs[i].val, b.fields[i].val)
    case _ => b == a
  }

  /** The conversion is exactly the ObjectId replacement: its result replaces the ObjectIds
      of its input, and it is the only tree that does. */
  lemma {:induction false} ConvertIsReplacement(v: Value, r: Value)
    ensures ReplacesObjectIds(v, r) <==> r == Convert(v)
    decreases v
  {
    match v
    case ObjectId(h) =>
    case List(xs) =>
      forall i | 0 <= i < |xs|
        ensures ReplacesObjectIds(xs[i], Convert(xs[i]))
      {
        ConvertIsReplacement(xs[i], Convert(xs[i]));
      }
      if r.List? && |r.items| == |xs| {
        forall i | 0 <= i < |xs|
          ensures ReplacesObjectIds(xs[i], r.items[i]) <==> r.items[i] == Convert(xs[i])
        {
          ConvertIsReplacement(xs[i], r.items[i]);
        }
        if ReplacesObjectIds(v, r) {
          assert r.items == ConvertItems(xs);
        }
      }
    case Dict(fs) =>
      forall i | 0 <= i < |fs|
        ensures ReplacesObjectIds(fs[i].val, Convert(fs[i].val))
      {
        ConvertIsReplacement(fs[i].val, Convert(fs[i].val));
      }
      if r.Dict? && |r.fields| == |fs| {
        forall i | 0 <= i < |fs|
          ensures ReplacesObjectIds(fs[i].val, r.fields[i].val) <==> r.fields[i].val == Convert(fs[i].val)
        {
          ConvertIsReplacement(fs[i].val, r.fields[i].val);
        }
        if ReplacesObjectIds(v, r) {
          assert r.fields == ConvertFields(fs);
        }
      }
    case _ =>
  }

  /** After the conversion no ObjectId is left. */
  lemma {:induction false} ConvertRemovesObjectIds(v: Value)
    ensures NoObjectIds(Convert(v))
    decreases v
  {
    match v
    case List(xs) =>
      forall i | 0 <= i < |xs| {
        ConvertRemovesObjectIds(xs[i]);
      }
    case Dict(fs) =>
      forall i | 0 <= i < |fs| {
        ConvertRemovesObjectIds(fs[i].val);
      }
    case _ =>
  }

  /** A tree without ObjectIds comes back unchanged. */
  lemma {:induction false} ConvertKeepsClean(v: Value)
    requires NoObjectIds(v)
    ensures Convert(v) == v
    decreases v
  {
    match v
    case List(xs) =>
      forall i | 0 <= i < |xs| {
        ConvertKeepsClean(xs[i]);
      }
      assert ConvertItems(xs) == xs;
    case Dict(fs) =>
      forall i | 0 <= i < |fs| {
        ConvertKeepsClean(fs[i].val);
      }
      assert ConvertFields(fs) == fs;
    case _ =>
  }

  /** Converting twice is converting once, which is why the program may apply it both to
      a record and to the retailored copy made from the converted record. */
  lemma ConvertIdempotent(v: Value)
    ensures Convert(Convert(v)) == Convert(v)
  {
    ConvertRemovesObjectIds(v);
    ConvertKeepsClean(Convert(v));
  }
}

=== FILE: ordering.dfy ===
/** Python's ordering of strings (code point by code point, a proper prefix first) and
    `sorted` on a list of strings. The upload page compares two lists of file names by
    comparing their sorted forms; the lemmas here show that this compares the lists as
    multisets, whatever sorting algorithm produced the sorted forms. */
module Ordering {

  /** `a <= b` on Python strings. */
  predicate AtMost(a: string, b: string) {
    a == [] || (b != [] && (a[0] < b[0] || (a[0] == b[0] && AtMost(a[1..], b[1..]))))
  }

  lemma {:induction false} AtMostTotal(a: string, b: string)
    ensures AtMost(a, b) || AtMost(b, a)
  {
    if a != [] && b != [] && a[0] == b[0] {
      AtMostTotal(a[1..], b[1..]);
    }
  }

  lemma {:induction false} AtMostAntisymmetric(a: string, b: string)
    requires AtMost(a, b) && AtMost(b, a)
    ensures a == b
  {
    if a != [] && b != [] {
      AtMostAntisymmetric(a[1..], b[1..]);
      assert a == [a[0]] + a[1..];
      assert b == [b[0]] + b[1..];
    }
  }

  lemma {:induction false} AtMostTransitive(a: string, b: string, c: string)
    requires AtMost(a, b) && AtMost(b, c)
    ensures AtMost(a, c)
  {
    if a != [] && b != [] && c != [] && a[0] == b[0] && b[0] == c[0] {
      AtMostTransitive(a[1..], b[1..], c[1..]);
    }
  }

  predicate Sorted(xs: seq<string>) {
    forall i, j :: 0 <= i < j < |xs| ==> AtMost(xs[i], xs[j])
  }

  /** Insert `x` into a sorted list before the first element it does not exceed. */
  function Insert(x: string, xs: seq<string>): (r: seq<string>)
    requires Sorted(xs)
    ensures Sorted(r)
    ensures multiset(r) == multiset(xs) + multiset{x}
  {
    if xs == [] then [x]
    else if AtMost(x, xs[0]) then
      var r := [x] + xs;
      forall i, j | 0 <= i < j < |r|
        ensures AtMost(r[i], r[j])
      {
        if i == 0 && j > 1 {
          AtMostTransitive(x, xs[0], xs[j - 1]);
        }
      }
      r
    else
      AtMostTotal(x, xs[0]);
      var rest := Insert(x, xs[1..]);
      var r := [xs[0]] + rest;
      assert xs == [xs[0]] + xs[1..];
      forall j | 1 <= j < |r|
        ensures AtMost(xs[0], r[j])
      {
        assert r[j] in multiset(rest);
        if r[j] != x {
          assert r[j] in multiset(xs[1..]);
          var k :| 0 <= k < |xs[1..]| && xs[1..][k] == r[j];
          assert xs[k + 1] == r[j];
        }
      }
      r
  }

  /** `sorted(xs)`, by insertion. */
  function Sort(xs: seq<string>): (r: seq<string>)
    ensures Sorted(r)
    ensures multiset(r) == multiset(xs)
  {
    if xs == [] then []
    else
      assert xs == [xs[0]] + xs[1..];
      Insert(xs[0], Sort(xs[1..]))
  }

  /** The first element of a sorted list is at most every element of it. */
  lemma HeadIsLeast(xs: seq<string>, e: string)
    requires Sorted(xs) && e in multiset(xs)
    ensures xs != [] && AtMost(xs[0], e)
  {
    var k :| 0 <= k < |xs| && xs[k] == e;
    if k == 0 {
      AtMostTotal(e, e);
    }
  }

  /** Two sorted lists with the same elements start with the same element. */
  lemma SameHead(a: seq<string>, b: seq<string>)
    requires Sorted(a) && Sorted(b) && multiset(a) == multiset(b) && a != []
    ensures b != [] && a[0] == b[0]
  {
    assert a[0] in multiset(a);
    HeadIsLeast(b, a[0]);
    assert b[0] in multiset(b);
    HeadIsLeast(a, b[0]);
    AtMostAntisymmetric(a[0], b[0]);
  }

  /** The tail of a list holds its elements but one copy of the head. */
  lemma TailMultiset(a: seq<string>)
    requires a != []
    ensures multiset(a[1..]) == multiset(a) - multiset{a[0]}
  {
    assert a == [a[0]] + a[1..];
  }

  /** A sorted list is determined by its multiset of elements. */
  lemma {:induction false} SortedUnique(a: seq<string>, b: seq<string>)
    requires Sorted(a) && Sorted(b) && multiset(a) == multiset(b)
    ensures a == b
    decreases |a|
  {
    if a != [] {
      SameHead(a, b);
      TailMultiset(a);
      TailMultiset(b);
      SortedUnique(a[1..], b[1..]);
      assert a == [a[0]] + a[1..];
      assert b == [b[0]] + b[1..];
    } else {
      assert |b| == |a|;
    }
  }

  /** Sorted forms are equal exactly when the lists hold the same elements with the same
      multiplicities; in particular reordering a list does not change its sorted form. */
  lemma SortEqualIff(a: seq<string>, b: seq<string>)
    ensures Sort(a) == Sort(b) <==> multiset(a) == multiset(b)
  {
    if multiset(a) == multiset(b) {
      SortedUnique(Sort(a), Sort(b));
    }
  }
}

=== FILE: pipeline.dfy ===
/** The "Process Resumes" action of the upload page (main.py:618-635): parse, standardize,
    validate and store, in that order, each stage handing its list of artifacts to the
    next, and the session state recording what each stage did. `ProcessResumes` is the
    press as written; `ProcessResumesCorrected` is the same press with the validate stage
    judging each record once and the store stage clearing its list first. */
module Pipeline {
  import opened Wrappers
  import opened Json
  import opened Files
  import opened Batch
  import opened Session
  import opened Stages

  /** What one press of the button sees of the outside world: the supported file types,
      the parsers, the backend, the store, whether the standardizer and the store can be
      set up, and the time the records are stamped with. */
  datatype Env = Env(
    supported: set<string>,
    parse: Upload -> Option<Value>,
    ocr: Upload -> Option<Value>,
    llm: (Value, Value) -> Option<Value>,
    insert: Value -> bool,
    standardizerReady: bool,
    storeReady: bool,
    stamp: string)

  /** The parsed-artifact and standardized-output directories. */
  datatype Dirs = Dirs(parsed: map<string, Value>, standardized: map<string, Value>)

  /** The counts the stages report. */
  datatype Report = Report(parsed: nat, standardized: nat, reprocessed: nat, uploaded: nat)

  /** One press of the button, as written. Every stage runs; the session's flags say
      which stages completed; the parse and standardize lists hold only artifacts of the
      previous stage's list, so their counts are bounded by the uploads; every listed
      parsed artifact belongs to a supported upload; the uploader's names are untouched;
      standardized outputs that existed before are still there. The store stage appends
      this run's stored artifacts to the list of uploaded files the session already held,
      and reports how many it stored. */
  method ProcessResumes(s: State, uploads: seq<Upload>, env: Env, dirs: Dirs)
    returns (s': State, dirs': Dirs, report: Report)
    ensures s'.uploadedFileNames == s.uploadedFileNames
    ensures s'.processingComplete
    ensures s'.standardizingComplete == env.standardizerReady
    ensures s'.dbUploadComplete == env.storeReady
    ensures report.parsed == |s'.processedFiles| <= |uploads|
    ensures report.standardized == |s'.standardizedFiles| <= |s'.processedFiles|
    ensures report.reprocessed <= |s'.standardizedFiles|
    ensures forall p :: p in s'.processedFiles ==>
      exists i :: 0 <= i < |uploads| && p == ArtifactName(uploads[i].name) && Parses(uploads[i], env.supported, env.parse)
    ensures forall p :: p in s'.standardizedFiles ==> p in s'.processedFiles
    ensures dirs.standardized.Keys <= dirs'.standardized.Keys
    ensures var stored := Select(s'.standardizedFiles, StoredFlags(s'.standardizedFiles, dirs'.standardized, env.insert));
      && (env.storeReady ==> s'.uploadedFiles == s.uploadedFiles + stored && report.uploaded == |stored|)
      && (!env.storeReady ==> s'.uploadedFiles == s.uploadedFiles && report.uploaded == 0)
    ensures report.uploaded <= |s'.standardizedFiles|
  {
    var mid;
    mid, dirs', report := EarlyStages(s, uploads, env, dirs);
    var stored := StoreStageAsWritten(mid.standardizedFiles, dirs'.standardized, env, s.uploadedFiles);
    s' := mid.(dbUploadComplete := stored.complete, uploadedFiles := stored.uploadedFiles);
    report := report.(uploaded := stored.count);
  }

  /** One press of the button with the validate stage judging each record once and the
      store stage clearing its list first: parsing completes; standardizing and storing
      complete exactly when their backends are set up; each stage's list holds only
      artifacts of the previous stage's list; the records sent to repair number at most
      the distinct standardized records; the list of uploaded files has the reported
      length; the uploader's names and existing outputs survive. */
  method ProcessResumesCorrected(s: State, uploads: seq<Upload>, env: Env, dirs: Dirs)
    returns (s': State, dirs': Dirs, report: Report)
    ensures s'.uploadedFileNames == s.uploadedFileNames
    ensures s'.processingComplete
    ensures s'.standardizingComplete == env.standardizerReady
    ensures s'.dbUploadComplete == env.storeReady
    ensures report.parsed == |s'.processedFiles| <= |uploads|
    ensures report.standardized == |s'.standardizedFiles| <= |s'.processedFiles|
    ensures report.uploaded == |s'.uploadedFiles| <= |s'.standardizedFiles|
    ensures report.reprocessed <= |Distinct(s'.standardizedFiles)|
    ensures forall p :: p in s'.processedFiles ==>
      exists i :: 0 <= i < |uploads| && p == ArtifactName(uploads[i].name) && Parses(uploads[i], env.supported, env.parse)
    ensures forall p :: p in s'.standardizedFiles ==> p in s'.processedFiles
    ensures forall p :: p in s'.uploadedFiles ==> p in s'.standardizedFiles
    ensures dirs.standardized.Keys <= dirs'.standardized.Keys
  {
    var parsed := ParseStage(uploads, env, dirs.parsed);
    var standardized := StandardizeStage(parsed.processed, parsed.parsedDir, env, dirs.standardized);
    var validated := ValidateStageOnce(standardized.standardized, standardized.stdDir, uploads, env);
    var stored := StoreStage(standardized.standardized, validated.stdDir, env);
    s' := s.(processingComplete := true,
             standardizingComplete := standardized.complete,
             dbUploadComplete := stored.complete,
             processedFiles := parsed.processed,
             standardizedFiles := standardized.standardized,
             uploadedFiles := stored.uploadedFiles);
    dirs' := Dirs(parsed.parsedDir, validated.stdDir);
    report := Report(parsed.count, standardized.count, validated.reprocessed, stored.count);
  }

  /** The parse, standardize and validate stages of one press, and the session state they
      leave; the store stage's flag, list and count are left for the caller. */
  method EarlyStages(s: State, uploads: seq<Upload>, env: Env, dirs: Dirs)
    returns (s': State, dirs': Dirs, report: Report)
    ensures s'.uploadedFileNames == s.uploadedFileNames
    ensures s'.processingComplete
    ensures s'.standardizingComplete == env.standardizerReady
    ensures report.parsed == |s'.processedFiles| <= |uploads|
    ensures report.standardized == |s'.standardizedFiles| <= |s'.processedFiles|
    ensures report.reprocessed <= |s'.standardizedFiles|
    ensures forall p :: p in s'.processedFiles ==>
      exists i :: 0 <= i < |uploads| && p == ArtifactName(uploads[i].name) && Parses(uploads[i], env.supported, env.parse)
    ensures forall p :: p in s'.standardizedFiles ==> p in s'.processedFiles
    ensures dirs.standardized.Keys <= dirs'.standardized.Keys
  {
    var parsed := ParseStage(uploads, env, dirs.parsed);
    var standardized := StandardizeStage(parsed.processed, parsed.parsedDir, env, dirs.standardized);
    var validated := ValidateStage(standardized.standardized, standardized.stdDir, uploads, env);
    s' := s.(processingComplete := true,
             standardizingComplete := standardized.complete,
             processedFiles := parsed.processed,
             standardizedFiles := standardized.standardized);
    dirs' := Dirs(parsed.parsedDir, validated.stdDir);
    report := Report(parsed.count, standardized.count, validated.reprocessed, 0);
  }

  /** The parse stage as the button runs it: it lists at most one artifact per upload,
      and only artifacts of supported uploads that parsed. */
  method ParseStage(uploads: seq<Upload>, env: Env, parsedDir: map<string, Value>) returns (run: ParseRun)
    ensures run.count == |run.processed| <= |uploads|
    ensures forall p :: p in run.processed ==>
      exists i :: 0 <= i < |uploads| && p == ArtifactName(uploads[i].name) && Parses(uploads[i], env.supported, env.parse)
  {
    run := ProcessUploadedFiles(uploads, env.supported, env.parse, env.stamp, parsedDir);
    ParsedAreSupported(uploads, env.supported, env.parse, env.stamp);
  }

  /** The standardize stage as the button runs it: it completes exactly when the
      standardizer is set up, lists only parsed artifacts, and removes no output. */
  method StandardizeStage(processed: seq<string>, parsedDir: map<string, Value>, env: Env, stdDir: map<string, Value>)
    returns (run: StandardizeRun)
    ensures run.complete == env.standardizerReady
    ensures run.count == |run.standardized| <= |processed|
    ensures forall p :: p in run.standardized ==> p in processed
    ensures stdDir.Keys <= run.stdDir.Keys
  {
    run := StandardizeResumes(processed, parsedDir, stdDir, env.llm, env.stamp, env.standardizerReady);
    if env.standardizerReady {
      SelectSubset(processed, StandardizedFlags(run.outcomes));
      StandardizeKeepsExisting(processed, stdDir, FreshAttempt(parsedDir, env.llm, env.stamp));
    }
  }

  /** The validate stage as the button runs it: it counts at most one attempt per listed
      entry (a record is listed once per upload sharing its stem) and neither adds nor
      removes outputs. */
  method ValidateStage(files: seq<string>, stdDir: map<string, Value>, uploads: seq<Upload>, env: Env)
    returns (run: ValidateRun)
    ensures run.reprocessed <= |files|
    ensures run.stdDir.Keys == stdDir.Keys
  {
    run := ValidateAndReprocess(files, stdDir, uploads, env.ocr, env.llm, env.stamp, env.standardizerReady);
    RepairKeepsFiles(files, stdDir, uploads, env.ocr, env.llm, env.stamp, env.standardizerReady);
  }

  /** The corrected validate stage: it judges each distinct record once, counts at most
      one attempt per record, and neither adds nor removes outputs. */
  method ValidateStageOnce(files: seq<string>, stdDir: map<string, Value>, uploads: seq<Upload>, env: Env)
    returns (run: ValidateRun)
    ensures run.reprocessed <= |Distinct(files)| <= |files|
    ensures run.stdDir.Keys == stdDir.Keys
  {
    run := ValidateAndReprocessOnce(files, stdDir, uploads, env.ocr, env.llm, env.stamp, env.standardizerReady);
    RepairKeepsFiles(Distinct(files), stdDir, uploads, env.ocr, env.llm, env.stamp, env.standardizerReady);
  }

  /** The store stage as the button runs it: it completes exactly when the store is set
      up, and then appends the artifacts it stored in this run, in order, to the list it
      was given and reports their number; without a store the list is left as it was. */
  method StoreStageAsWritten(files: seq<string>, stdDir: map<string, Value>, env: Env, before: seq<string>)
    returns (run: UploadRun)
    ensures run.complete == env.storeReady
    ensures env.storeReady ==> run.uploadedFiles == before + Select(files, StoredFlags(files, stdDir, env.insert))
    ensures env.storeReady ==> run.count == |Select(files, StoredFlags(files, stdDir, env.insert))|
    ensures !env.storeReady ==> run.uploadedFiles == before && run.count == 0
    ensures run.count <= |files|
  {
    run := UploadToMongoAsWritten(files, stdDir, env.insert, env.storeReady, before);
  }

  /** The corrected store stage: it completes exactly when the store is set up and lists
      only standardized artifacts. */
  method StoreStage(files: seq<string>, stdDir: map<string, Value>, env: Env) returns (run: UploadRun)
    ensures run.complete == env.storeReady
    ensures run.count == |run.uploadedFiles| <= |files|
    ensures forall p :: p in run.uploadedFiles ==> p in files
  {
    run := UploadToMongo(files, stdDir, env.insert, env.storeReady);
    if env.storeReady {
      SelectSubset(files, StoredFlags(files, stdDir, env.insert));
    }
  }
}

=== FILE: search.dfy ===
/** The "Search by Field" query of the database page (main.py:779-796): an empty search
    value builds no query; the skills field is searched for an exact element; every other
    field, dotted or not, is searched with a case-insensitive regular expression made of
    the value as typed. */
module Search {
  import opened Wrappers
  import opened Json

  /** What a query asks of a field. */
  datatype Filter =
    | AnyOf(values: seq<string>)              // `{"$in": values}`
    | Pattern(regex: string, ignoreCase: bool) // `{"$regex": regex, "$options": "i"}` when ignoring case

  datatype Criterion = Criterion(field: string, filter: Filter)

  /** The query document for one field and filter. */
  function Encode(c: Criterion): Value {
    match c.filter
    case AnyOf(vs) => Dict([Field(c.field, Dict([Field("$in", List(seq(|vs|, i requires 0 <= i < |vs| => Str(vs[i]))))]))])
    case Pattern(re, ic) =>
      Dict([Field(c.field, Dict([Field("$regex", Str(re))] + (if ic then [Field("$options", Str("i"))] else [])))])
  }

  /** The query the search button sends, or `None` when the value is empty and only a
      warning is shown. */
  function BuildQuery(field: string, value: string): (r: Option<Value>)
    ensures r.None? <==> value == ""
    ensures r.Some? ==> r.value.Dict? && Keys(r.value.fields) == [field]
  {
    if value == "" then None
    else if field == "skills" then Some(Dict([Field(field, Dict([Field("$in", List([Str(value)]))]))]))
    else if '.' in field then Some(Dict([Field(field, Dict([Field("$regex", Str(value)), Field("$options", Str("i"))]))]))
    else Some(Dict([Field(field, Dict([Field("$regex", Str(value)), Field("$options", Str("i"))]))]))
  }

  /** The criterion a search for `value` in `field` means. */
  function Intended(field: string, value: string): Criterion {
    if field == "skills" then Criterion(field, AnyOf([value])) else Criterion(field, Pattern(value, true))
  }

  /** Reading a query document back: a one-field document whose filter is a list of
      strings under `$in`, or a string under `$regex` with or without the `i` option. */
  function Decode(q: Value): (r: Option<Criterion>)
  {
    if !q.Dict? || |q.fields| != 1 || !q.fields[0].val.Dict? then None
    else
      var field := q.fields[0].key;
      var ops := q.fields[0].val.fields;
      if |ops| == 1 && ops[0].key == "$in" && ops[0].val.List? && AllStrings(ops[0].val.items) then
        Some(Criterion(field, AnyOf(Texts(ops[0].val.items))))
      else if 1 <= |ops| <= 2 && ops[0].key == "$regex" && ops[0].val.Str? then
        if |ops| == 1 then Some(Criterion(field, Pattern(ops[0].val.s, false)))
        else if ops[1] == Field("$options", Str("i")) then Some(Criterion(field, Pattern(ops[0].val.s, true)))
        else None
      else None
  }

  /** Every criterion survives encoding and decoding. */
  lemma DecodeEncode(c: Criterion)
    ensures Decode(Encode(c)) == Some(c)
  {
    match c.filter
    case AnyOf(vs) =>
      var items := seq(|vs|, i requires 0 <= i < |vs| => Str(vs[i]));
      assert Texts(items) == vs;
    case Pattern(re, ic) =>
  }

  /** Decoding only accepts encodings: a document that reads as a criterion is that
      criterion's encoding. */
  lemma EncodeDecode(q: Value)
    requires Decode(q).Some?
    ensures Encode(Decode(q).value) == q
  {
    var field := q.fields[0].key;
    var ops := q.fields[0].val.fields;
    assert q == Dict([Field(field, Dict(ops))]);
    if |ops| == 1 && ops[0].key == "$in" && ops[0].val.List? && AllStrings(ops[0].val.items) {
      var items := ops[0].val.items;
      assert seq(|items|, i requires 0 <= i < |items| => Str(Texts(items)[i])) == items;
      assert ops == [Field("$in", List(items))];
    } else if |ops| == 1 {
      assert ops == [Field("$regex", Str(ops[0].val.s))] + [];
    } else {
      assert ops == [Field("$regex", Str(ops[0].val.s))] + [Field("$options", Str("i"))];
    }
  }

  /** A query the button sends is exactly the encoding of what the search means: the
      skills field is matched by exact element, every other field, dotted or not, by the
      value as a case-insensitive regular expression. */
  lemma BuildQueryMeans(field: string, value: string)
    requires value != ""
    ensures BuildQuery(field, value) == Some(Encode(Intended(field, value)))
    ensures Decode(BuildQuery(field, value).value) == Some(Intended(field, value))
  {
    if field == "skills" {
      assert seq(1, i requires 0 <= i < 1 => Str([value][i])) == [Str(value)];
    } else {
      assert [Field("$regex", Str(value))] + [Field("$options", Str("i"))] ==
        [Field("$regex", Str(value)), Field("$options", Str("i"))];
    }
    DecodeEncode(Intended(field, value));
  }

  /** The query the button sends is determined by what it means: two searches send the
      same query exactly when they search the same field for the same value. */
  lemma BuildQueryInjective(f1: string, v1: string, f2: string, v2: string)
    requires v1 != "" && v2 != ""
    ensures BuildQuery(f1, v1) == BuildQuery(f2, v2) <==> f1 == f2 && v1 == v2
  {
    BuildQueryMeans(f1, v1);
    BuildQueryMeans(f2, v2);
  }
}

=== FILE: session.dfy ===
/** The per-browser-session pipeline state of the upload page (main.py:120-132, 602-616):
    three stage-completion flags, the artifact lists the stages hand to each other, and
    the names of the files currently in the uploader. The state is reset when the set of
    uploaded names changes, and only then. */
module Session {
  import opened Ordering

  datatype State = State(
    uploadedFileNames: seq<string>,   // names in the uploader when the state was last reset
    processingComplete: bool,
    standardizingComplete: bool,
    dbUploadComplete: bool,
    processedFiles: seq<string>,      // parsed artifacts, in upload order
    standardizedFiles: seq<string>,   // standardized artifacts, in processing order
    uploadedFiles: seq<string>)       // artifacts written to the store

  /** The state after a reset for the given uploader contents. */
  function Fresh(names: seq<string>): State {
    State(names, false, false, false, [], [], [])
  }

  /** What rendering the upload page does to the state, given the names now in the
      uploader: an empty uploader changes nothing; otherwise the state is reset exactly
      when the names differ as a multiset from the remembered ones (the program compares
      sorted lists). */
  function OnUploads(s: State, current: seq<string>): (r: State)
    ensures current == [] ==> r == s
    ensures current != [] && multiset(current) == multiset(s.uploadedFileNames) ==> r == s
    ensures current != [] && multiset(current) != multiset(s.uploadedFileNames) ==> r == Fresh(current)
  {
    SortEqualIff(current, s.uploadedFileNames);
    if current != [] && Sort(current) != Sort(s.uploadedFileNames) then Fresh(current) else s
  }

  /** Re-rendering with the same files in any order keeps the progress of the first
      render: flags and artifact lists survive a reordering of the uploader. */
  lemma ReorderKeepsProgress(s: State, current: seq<string>, reordered: seq<string>)
    requires multiset(reordered) == multiset(current)
    ensures OnUploads(OnUploads(s, current), reordered) == OnUploads(s, current)
  {
    if current == [] {
      assert |reordered| == |current|;
    }
  }
}

=== FILE: stages.dfy ===
/** The four batch stages of the upload pipeline (main.py:135-379): parse every upload,
    standardize every parsed artifact, check every listed standardized record's name and
    repair it if needed, and write every standardized record to the store. Each stage
    handles one entry at a time, reports each entry's fate, and counts its successes.

    The collaborators the stages call are parameters: `parse` and `ocr` stand for the two
    resume parsers (`None` when the parser raises), `llm` for prompting the backend,
    cleaning its answer and decoding it as JSON (`None` when any of that raises), and
    `insert` for the store's insert-or-update (false when it raises). `stamp` is the
    timestamp the stage writes into its records. */
module Stages {
  import opened Wrappers
  import opened Json
  import opened Strings
  import opened Files
  import opened NameCheck
  import opened Batch

  /** The artifact name of every upload, in order. */
  function Artifacts(uploads: seq<Upload>): (r: seq<string>)
    ensures |r| == |uploads|
    ensures forall i :: 0 <= i < |uploads| ==> r[i] == ArtifactName(uploads[i].name)
  {
    seq(|uploads|, i requires 0 <= i < |uploads| => ArtifactName(uploads[i].name))
  }

  /** A parsed record: the parser's fields, stamped with the time and the upload's name. */
  function ParsedRecord(fs: seq<Field>, stamp: string, name: string): (r: Value)
    ensures r.Dict?
    ensures Get(r.fields, "timestamp") == Some(Str(stamp))
    ensures Get(r.fields, "original_filename") == Some(Str(name))
    ensures forall k :: k != "timestamp" && k != "original_filename" ==> Get(r.fields, k) == Get(fs, k)
  {
    Dict(Set2(fs, "timestamp", Str(stamp), "original_filename", Str(name)))
  }

  /** A standardized record: the backend's fields, stamped with the time and the file it
      was made from, and carrying the original upload's name when one is known. */
  function StandardizedRecord(out: seq<Field>, stamp: string, source: string, original: Option<Value>): (r: Value)
    ensures r.Dict?
    ensures Get(r.fields, "timestamp") == Some(Str(stamp))
    ensures Get(r.fields, "source_file") == Some(Str(source))
    ensures Get(r.fields, "original_filename") == if original.Some? then original else Get(out, "original_filename")
    ensures forall k :: k != "timestamp" && k != "source_file" && k != "original_filename" ==> Get(r.fields, k) == Get(out, k)
  {
    match original
    case Some(n) => Dict(Set3(out, "timestamp", Str(stamp), "source_file", Str(source), "original_filename", n))
    case None => Dict(Set2(out, "timestamp", Str(stamp), "source_file", Str(source)))
  }

  // ---------------------------------------------------------------------------
  // Parse stage (main.py:135-186)
  // ---------------------------------------------------------------------------

  datatype ParseOutcome =
    | Unsupported(ext: string)   // the lower-cased suffix is not a supported type: skipped
    | NoContent                  // the parser returned nothing: skipped with a warning
    | ParseFailed                // the parser raised, or its result cannot be stamped
    | Parsed(record: Value)      // stamped and written to the upload's artifact

  /** The upload is of a supported type and parses to a non-empty dict. */
  predicate Parses(u: Upload, supported: set<string>, parse: Upload -> Option<Value>) {
    Lower(Suffix(u.name)) in supported && parse(u).Some? && parse(u).value.Dict? && Truthy(parse(u).value)
  }

  /** The fate of one upload in the parse stage: skipped exactly when its lower-cased
      suffix is unsupported or the parser gives nothing, fails or gives a non-dict;
      otherwise the parser's record, stamped with the time and the upload's name and
      otherwise unchanged. */
  function ParseFile(u: Upload, supported: set<string>, parse: Upload -> Option<Value>, stamp: string): (r: ParseOutcome)
    ensures r.Unsupported? <==> Lower(Suffix(u.name)) !in supported
    ensures r.Unsupported? ==> r.ext == Lower(Suffix(u.name))
    ensures r.NoContent? <==> Lower(Suffix(u.name)) in supported && parse(u).Some? && !Truthy(parse(u).value)
    ensures r.Parsed? <==> Parses(u, supported, parse)
    ensures r.Parsed? ==>
      && r.record.Dict?
      && Get(r.record.fields, "timestamp") == Some(Str(stamp))
      && Get(r.record.fields, "original_filename") == Some(Str(u.name))
      && forall k :: k != "timestamp" && k != "original_filename" ==> Get(r.record.fields, k) == Get(parse(u).value.fields, k)
  {
    var ext := Lower(Suffix(u.name));
    if ext !in supported then Unsupported(ext)
    else match parse(u)
      case None => ParseFailed
      case Some(doc) =>
        if !Truthy(doc) then NoContent
        else if !doc.Dict? then ParseFailed
        else Parsed(ParsedRecord(doc.fields, stamp, u.name))
  }

  /** What the stage does with each upload. */
  function ParseWith(supported: set<string>, parse: Upload -> Option<Value>, stamp: string): Upload -> ParseOutcome {
    u => ParseFile(u, supported, parse, stamp)
  }

  /** The fate of every upload of a batch, in order. */
  function ParseAll(uploads: seq<Upload>, fate: Upload -> ParseOutcome): (r: seq<ParseOutcome>)
    ensures |r| == |uploads|
    decreases |uploads|
  {
    if uploads == [] then []
    else ParseAll(uploads[..|uploads| - 1], fate) + [fate(uploads[|uploads| - 1])]
  }

  lemma {:induction false} ParseAllAt(uploads: seq<Upload>, fate: Upload -> ParseOutcome, i: nat)
    requires i < |uploads|
    ensures ParseAll(uploads, fate)[i] == fate(uploads[i])
    decreases |uploads|
  {
    if i < |uploads| - 1 {
      ParseAllAt(uploads[..|uploads| - 1], fate, i);
    }
  }

  /** Which uploads the parse stage counts. */
  function ParsedFlags(os: seq<ParseOutcome>): (r: seq<bool>)
    ensures |r| == |os|
    ensures forall i :: 0 <= i < |os| ==> r[i] == os[i].Parsed?
  {
    seq(|os|, i requires 0 <= i < |os| => os[i].Parsed?)
  }

  /** What the parse stage writes for each upload. */
  function ParseWrites(os: seq<ParseOutcome>): (r: seq<Option<Value>>)
    ensures |r| == |os|
    ensures forall i :: 0 <= i < |os| ==> r[i] == if os[i].Parsed? then Some(os[i].record) else None
  {
    seq(|os|, i requires 0 <= i < |os| => if os[i].Parsed? then Some(os[i].record) else None)
  }

  datatype ParseRun = ParseRun(
    outcomes: seq<ParseOutcome>,       // one per upload, in order
    processed: seq<string>,            // `processed_files`
    count: nat,                        // `processed_count`
    parsedDir: map<string, Value>)     // the parsed-artifact directory afterwards

  /** The loop of the parse stage, for any per-upload fate: every upload gets its fate,
      exactly the parsed ones are counted and listed, under their artifact names and in
      upload order, and each parsed record is written to its artifact, a later upload with
      the same stem overwriting an earlier one. */
  method ParseEach(uploads: seq<Upload>, fate: Upload -> ParseOutcome, parsedDir: map<string, Value>)
    returns (run: ParseRun)
    ensures run.outcomes == ParseAll(uploads, fate)
    ensures run.processed == Select(Artifacts(uploads), ParsedFlags(run.outcomes))
    ensures run.count == |run.processed| <= |uploads|
    ensures run.parsedDir == Replay(parsedDir, Artifacts(uploads), ParseWrites(run.outcomes), |uploads|)
  {
    run := ParseRun([], [], 0, parsedDir);
    var i := 0;
    while i < |uploads|
      invariant 0 <= i <= |uploads|
      invariant ParsedUpTo(uploads, fate, parsedDir, run, i)
    {
      run := ParseNext(uploads, fate, parsedDir, run, i);
      i := i + 1;
    }
    assert Artifacts(uploads)[..i] == Artifacts(uploads);
    assert uploads[..i] == uploads;
  }

  /** The state of the parse loop after the first `i` uploads. */
  predicate ParsedUpTo(uploads: seq<Upload>, fate: Upload -> ParseOutcome, parsedDir: map<string, Value>, run: ParseRun, i: nat)
    requires i <= |uploads|
  {
    && run.outcomes == ParseAll(uploads[..i], fate)
    && run.processed == Select(Artifacts(uploads)[..i], ParsedFlags(run.outcomes))
    && run.count == |run.processed|
    && run.parsedDir == Replay(parsedDir, Artifacts(uploads), ParseWrites(run.outcomes), i)
  }

  /** One pass of the parse loop: parse the next upload, and write and list its artifact
      when it parsed. */
  method ParseNext(uploads: seq<Upload>, fate: Upload -> ParseOutcome, parsedDir: map<string, Value>, run: ParseRun, i: nat)
    returns (run': ParseRun)
    requires i < |uploads|
    requires ParsedUpTo(uploads, fate, parsedDir, run, i)
    ensures ParsedUpTo(uploads, fate, parsedDir, run', i + 1)
  {
    var u := uploads[i];
    var o := fate(u);
    var path := ArtifactName(u.name);
    ParseStep(uploads, parsedDir, run.outcomes, o, i);
    assert uploads[..i + 1][..i] == uploads[..i];
    if o.Parsed? {
      run' := ParseRun(run.outcomes + [o], run.processed + [path], run.count + 1, run.parsedDir[path := o.record]);
    } else {
      run' := ParseRun(run.outcomes + [o], run.processed, run.count, run.parsedDir);
    }
  }

  /** `process_uploaded_files`: every upload gets the outcome `ParseFile` gives it (see
      `ParseAllAt`); exactly the parsed ones are counted and listed, under their artifact
      names and in upload order; each parsed record is written to its artifact, a later
      upload with the same stem overwriting an earlier one. */
  method ProcessUploadedFiles(uploads: seq<Upload>, supported: set<string>, parse: Upload -> Option<Value>, stamp: string, parsedDir: map<string, Value>)
    returns (run: ParseRun)
    ensures run.outcomes == ParseAll(uploads, ParseWith(supported, parse, stamp))
    ensures run.processed == Select(Artifacts(uploads), ParsedFlags(run.outcomes))
    ensures run.count == |run.processed| <= |uploads|
    ensures run.parsedDir == Replay(parsedDir, Artifacts(uploads), ParseWrites(run.outcomes), |uploads|)
  {
    run := ParseEach(uploads, ParseWith(supported, parse, stamp), parsedDir);
  }

  /** One more upload of the parse loop: its flag extends the list of parsed artifacts and
      its write extends the directory. */
  lemma ParseStep(uploads: seq<Upload>, parsedDir: map<string, Value>, outcomes: seq<ParseOutcome>, o: ParseOutcome, i: nat)
    requires |outcomes| == i < |uploads|
    ensures Select(Artifacts(uploads)[..i + 1], ParsedFlags(outcomes + [o])) ==
      Select(Artifacts(uploads)[..i], ParsedFlags(outcomes)) + (if o.Parsed? then [ArtifactName(uploads[i].name)] else [])
    ensures var d := Replay(parsedDir, Artifacts(uploads), ParseWrites(outcomes), i);
      Replay(parsedDir, Artifacts(uploads), ParseWrites(outcomes + [o]), i + 1) ==
        if o.Parsed? then d[ArtifactName(uploads[i].name) := o.record] else d
  {
    ghost var w: Option<Value> := if o.Parsed? then Some(o.record) else None;
    ReplaySnoc(parsedDir, Artifacts(uploads), ParseWrites(outcomes), w);
    SelectStep(Artifacts(uploads), ParsedFlags(outcomes + [o]), i);
    assert ParsedFlags(outcomes + [o])[..i] == ParsedFlags(outcomes);
    assert ParseWrites(outcomes + [o]) == ParseWrites(outcomes) + [w];
  }

  /** Every listed artifact belongs to an upload of a supported type that parsed to a
      non-empty dict, and every such upload's artifact is listed. */
  lemma ParsedAreSupported(uploads: seq<Upload>, supported: set<string>, parse: Upload -> Option<Value>, stamp: string)
    ensures var processed := Select(Artifacts(uploads), ParsedFlags(ParseAll(uploads, ParseWith(supported, parse, stamp))));
      && (forall p :: p in processed ==>
            exists i :: 0 <= i < |uploads| && p == ArtifactName(uploads[i].name) && Parses(uploads[i], supported, parse))
      && (forall i :: 0 <= i < |uploads| && Parses(uploads[i], supported, parse) ==> ArtifactName(uploads[i].name) in processed)
  {
    var fate := ParseWith(supported, parse, stamp);
    var outcomes := ParseAll(uploads, fate);
    forall i | 0 <= i < |uploads|
      ensures outcomes[i] == ParseFile(uploads[i], supported, parse, stamp)
    {
      ParseAllAt(uploads, fate, i);
    }
    SelectMembers(Artifacts(uploads), ParsedFlags(outcomes));
  }

  // ---------------------------------------------------------------------------
  // Standardize stage (main.py:188-264)
  // ---------------------------------------------------------------------------

  datatype StandardizeOutcome =
    | Reused                       // the output already exists: counted, no backend call
    | ReadFailed                   // the parsed artifact is missing, not a dict, or its content is not a string
    | EmptyContent                 // the content is blank: skipped with a warning
    | BackendFailed                // the backend call, cleaning or decoding raised, or gave no dict
    | Standardized(record: Value)  // stamped and written to the output

  /** The prompt inputs of a parsed artifact: `raw.get("content", "")` and
      `raw.get("links", [])`. */
  function Content(raw: seq<Field>): Value {
    GetOr(raw, "content", Str(""))
  }

  function Links(raw: seq<Field>): Value {
    GetOr(raw, "links", List([]))
  }

  /** The parsed artifact can be read and has non-blank text to standardize. */
  predicate Standardizable(path: string, parsedDir: map<string, Value>) {
    path in parsedDir && parsedDir[path].Dict? &&
    Content(parsedDir[path].fields).Str? && !Blank(Content(parsedDir[path].fields).s)
  }

  /** The fate of one parsed artifact whose output does not exist yet: the backend is
      consulted exactly for a readable artifact with non-blank content, a blank one is
      skipped, and a standardized record is the backend's answer stamped with the time and
      the artifact's name, keeping the upload's name the artifact carries. */
  function StandardizeFresh(path: string, parsedDir: map<string, Value>, llm: (Value, Value) -> Option<Value>, stamp: string): (r: StandardizeOutcome)
    ensures !r.Reused?
    ensures r.EmptyContent? <==>
      path in parsedDir && parsedDir[path].Dict? && Content(parsedDir[path].fields).Str? && Blank(Content(parsedDir[path].fields).s)
    ensures r.Standardized? || r.BackendFailed? <==> Standardizable(path, parsedDir)
    ensures Standardizable(path, parsedDir) ==>
      var out := llm(Content(parsedDir[path].fields), Links(parsedDir[path].fields));
      (r.Standardized? <==> out.Some? && out.value.Dict?)
    ensures r.Standardized? ==>
      && Standardizable(path, parsedDir)
      && var raw := parsedDir[path].fields;
      && var out := llm(Content(raw), Links(raw));
      && out.Some? && out.value.Dict? && r.record.Dict?
      && Get(r.record.fields, "timestamp") == Some(Str(stamp))
      && Get(r.record.fields, "source_file") == Some(Str(path))
      && Get(r.record.fields, "original_filename") ==
           (if Get(raw, "original_filename").Some? then Get(raw, "original_filename") else Get(out.value.fields, "original_filename"))
      && forall k :: k != "timestamp" && k != "source_file" && k != "original_filename" ==>
           Get(r.record.fields, k) == Get(out.value.fields, k)
  {
    match Lookup(parsedDir, path)
    case None => ReadFailed
    case Some(raw) =>
      if !raw.Dict? then ReadFailed
      else
        var content := Content(raw.fields);
        if !content.Str? then ReadFailed
        else if Blank(content.s) then EmptyContent
        else match llm(content, Links(raw.fields))
          case Some(Dict(out)) =>
            Standardized(StandardizedRecord(out, stamp, path, Get(raw.fields, "original_filename")))
          case _ => BackendFailed
  }

  /** Which artifacts the standardize stage counts: reused and freshly standardized ones. */
  function StandardizedFlags(os: seq<StandardizeOutcome>): (r: seq<bool>)
    ensures |r| == |os|
    ensures forall i :: 0 <= i < |os| ==> r[i] == (os[i].Reused? || os[i].Standardized?)
  {
    seq(|os|, i requires 0 <= i < |os| => os[i].Reused? || os[i].Standardized?)
  }

  /** What the standardize stage writes for each artifact. */
  function StandardizeWrites(os: seq<StandardizeOutcome>): (r: seq<Option<Value>>)
    ensures |r| == |os|
    ensures forall i :: 0 <= i < |os| ==> r[i] == if os[i].Standardized? then Some(os[i].record) else None
  {
    seq(|os|, i requires 0 <= i < |os| => if os[i].Standardized? then Some(os[i].record) else None)
  }

  /** What the stage does with an artifact whose output does not exist yet. */
  function FreshAttempt(parsedDir: map<string, Value>, llm: (Value, Value) -> Option<Value>, stamp: string): string -> StandardizeOutcome {
    p => StandardizeFresh(p, parsedDir, llm, stamp)
  }

  /** The fate of every parsed artifact of a batch, in order, once the standardizer is
      set up: an artifact whose output exists by the time it is reached is reused, any
      other one gets the fate `attempt` gives it. */
  function StandardizeAll(processed: seq<string>, stdDir: map<string, Value>, attempt: string -> StandardizeOutcome): (r: seq<StandardizeOutcome>)
    ensures |r| == |processed|
    decreases |processed|
  {
    if processed == [] then []
    else
      var n := |processed| - 1;
      var prev := StandardizeAll(processed[..n], stdDir, attempt);
      prev + [if processed[n] in Replay(stdDir, processed, StandardizeWrites(prev), n) then Reused else attempt(processed[n])]
  }

  lemma {:induction false} StandardizeAllAt(processed: seq<string>, stdDir: map<string, Value>, attempt: string -> StandardizeOutcome, i: nat)
    requires i < |processed|
    ensures var r := StandardizeAll(processed, stdDir, attempt);
      r[i] == if processed[i] in Replay(stdDir, processed, StandardizeWrites(r), i) then Reused else attempt(processed[i])
    decreases |processed|
  {
    var r := StandardizeAll(processed, stdDir, attempt);
    var n := |processed| - 1;
    var prev := StandardizeAll(processed[..n], stdDir, attempt);
    assert StandardizeWrites(r)[..i] == StandardizeWrites(prev)[..i];
    ReplayPrefix(stdDir, processed, StandardizeWrites(r), StandardizeWrites(prev), i);
    if i < n {
      StandardizeAllAt(processed[..n], stdDir, attempt, i);
      assert processed[..n][..i] == processed[..i];
      ReplayPathsPrefix(stdDir, processed[..n], processed, StandardizeWrites(prev), i);
    }
  }

  /** One more artifact of the standardize loop: its outcome extends the outcomes, its
      write extends the directory, and its flag extends the list of standardized files. */
  lemma StandardizeStep(processed: seq<string>, stdDir: map<string, Value>, attempt: string -> StandardizeOutcome,
                        outcomes: seq<StandardizeOutcome>, i: nat)
    requires i < |processed|
    requires outcomes == StandardizeAll(processed[..i], stdDir, attempt)
    ensures var d := Replay(stdDir, processed, StandardizeWrites(outcomes), i);
      var o := if processed[i] in d then Reused else attempt(processed[i]);
      && outcomes + [o] == StandardizeAll(processed[..i + 1], stdDir, attempt)
      && Replay(stdDir, processed, StandardizeWrites(outcomes + [o]), i + 1) == (if o.Standardized? then d[processed[i] := o.record] else d)
      && Select(processed[..i + 1], StandardizedFlags(outcomes + [o])) ==
           Select(processed[..i], StandardizedFlags(outcomes)) + (if o.Reused? || o.Standardized? then [processed[i]] else [])
  {
    var d := Replay(stdDir, processed, StandardizeWrites(outcomes), i);
    var o := if processed[i] in d then Reused else attempt(processed[i]);
    StandardizeAllSnoc(processed, stdDir, attempt, outcomes, i);
    StandardizeWritesSnoc(processed, stdDir, outcomes, o, i);
    StandardizeSelectSnoc(processed, outcomes, o, i);
  }

  /** The directory after one more artifact: the fresh record, if any, is written. */
  lemma StandardizeWritesSnoc(processed: seq<string>, stdDir: map<string, Value>, outcomes: seq<StandardizeOutcome>,
                              o: StandardizeOutcome, i: nat)
    requires |outcomes| == i < |processed|
    ensures var d := Replay(stdDir, processed, StandardizeWrites(outcomes), i);
      Replay(stdDir, processed, StandardizeWrites(outcomes + [o]), i + 1) == (if o.Standardized? then d[processed[i] := o.record] else d)
  {
    ghost var w: Option<Value> := if o.Standardized? then Some(o.record) else None;
    ReplaySnoc(stdDir, processed, StandardizeWrites(outcomes), w);
    assert StandardizeWrites(outcomes + [o]) == StandardizeWrites(outcomes) + [w];
  }

  /** The list after one more artifact: it is appended when reused or standardized. */
  lemma StandardizeSelectSnoc(processed: seq<string>, outcomes: seq<StandardizeOutcome>, o: StandardizeOutcome, i: nat)
    requires |outcomes| == i < |processed|
    ensures Select(processed[..i + 1], StandardizedFlags(outcomes + [o])) ==
      Select(processed[..i], StandardizedFlags(outcomes)) + (if o.Reused? || o.Standardized? then [processed[i]] else [])
  {
    SelectStep(processed, StandardizedFlags(outcomes + [o]), i);
    assert StandardizedFlags(outcomes + [o])[..i] == StandardizedFlags(outcomes);
  }

  /** The fates of one more artifact: the earlier fates, then the new artifact's fate
      given the directory as the earlier artifacts left it. */
  lemma StandardizeAllSnoc(processed: seq<string>, stdDir: map<string, Value>, attempt: string -> StandardizeOutcome,
                           outcomes: seq<StandardizeOutcome>, i: nat)
    requires i < |processed|
    requires outcomes == StandardizeAll(processed[..i], stdDir, attempt)
    ensures var d := Replay(stdDir, processed, StandardizeWrites(outcomes), i);
      outcomes + [if processed[i] in d then Reused else attempt(processed[i])] == StandardizeAll(processed[..i + 1], stdDir, attempt)
  {
    var longer := processed[..i + 1];
    assert longer[..i] == processed[..i];
    assert longer[i] == processed[i];
    ReplayPathsPrefix(stdDir, longer, processed, StandardizeWrites(outcomes), i);
  }

  /** No existing output is ever overwritten: an artifact is standardized afresh only
      when its output does not exist yet. */
  lemma StandardizeKeepsExisting(processed: seq<string>, stdDir: map<string, Value>, attempt: string -> StandardizeOutcome)
    ensures var r := StandardizeAll(processed, stdDir, attempt);
      var d := Replay(stdDir, processed, StandardizeWrites(r), |processed|);
      forall p :: p in stdDir ==> p in d && d[p] == stdDir[p]
  {
    var r := StandardizeAll(processed, stdDir, attempt);
    var w := StandardizeWrites(r);
    forall p | p in stdDir
      ensures Lookup(Replay(stdDir, processed, w, |processed|), p) == Lookup(stdDir, p)
    {
      forall k | 0 <= k < |processed|
        ensures !Writes(processed, w, k, p)
      {
        StandardizeAllAt(processed, stdDir, attempt, k);
        ReplayKeepsFiles(stdDir, processed, w, k);
      }
      UnwrittenUnchanged(stdDir, processed, w, |processed|, p);
    }
  }

  /** Over outputs that all exist, every artifact is reused, all are listed, and nothing
      is written. */
  lemma StandardizeRerun(processed: seq<string>, stdDir: map<string, Value>, attempt: string -> StandardizeOutcome)
    requires forall i :: 0 <= i < |processed| ==> processed[i] in stdDir
    ensures var r := StandardizeAll(processed, stdDir, attempt);
      && (forall i :: 0 <= i < |processed| ==> r[i] == Reused)
      && Select(processed, StandardizedFlags(r)) == processed
      && Replay(stdDir, processed, StandardizeWrites(r), |processed|) == stdDir
  {
    var r := StandardizeAll(processed, stdDir, attempt);
    forall j | 0 <= j < |processed|
      ensures r[j] == Reused
    {
      StandardizeAllAt(processed, stdDir, attempt, j);
      ReplayKeepsFiles(stdDir, processed, StandardizeWrites(r), j);
    }
    SelectAll(processed, StandardizedFlags(r));
    ReplayNoWrites(stdDir, processed, StandardizeWrites(r), |processed|);
  }

  datatype StandardizeRun = StandardizeRun(
    outcomes: seq<StandardizeOutcome>,   // one per parsed artifact, in order
    standardized: seq<string>,           // `standardized_files`
    count: nat,                          // `standardized_count`
    stdDir: map<string, Value>,          // the standardized-output directory afterwards
    complete: bool)                      // `standardizing_complete`

  /** `standardize_resumes`: when the standardizer cannot be set up nothing happens and
      the stage is not complete. Otherwise the artifacts are handled in order with the
      fates `StandardizeAll` gives them (see `StandardizeAllAt`), exactly the reused and
      the freshly standardized ones are counted and listed, in order, and the output
      directory receives exactly the fresh records. */
  method StandardizeResumes(processed: seq<string>, parsedDir: map<string, Value>, stdDir: map<string, Value>,
                            llm: (Value, Value) -> Option<Value>, stamp: string, ready: bool)
    returns (run: StandardizeRun)
    ensures !ready ==> run == StandardizeRun([], [], 0, stdDir, false)
    ensures ready ==> run.complete
    ensures ready ==> run.outcomes == StandardizeAll(processed, stdDir, FreshAttempt(parsedDir, llm, stamp))
    ensures ready ==> run.standardized == Select(processed, StandardizedFlags(run.outcomes))
    ensures ready ==> run.stdDir == Replay(stdDir, processed, StandardizeWrites(run.outcomes), |processed|)
    ensures run.count == |run.standardized| <= |processed|
  {
    if !ready {
      return StandardizeRun([], [], 0, stdDir, false);
    }
    run := StandardizeEach(processed, stdDir, FreshAttempt(parsedDir, llm, stamp));
  }

  /** The loop of the standardize stage, for any way of handling an artifact whose output
      does not exist yet: the artifacts get the fates `StandardizeAll` gives them, exactly
      the reused and the freshly standardized ones are counted and listed, in order, and
      the output directory receives exactly the fresh records. */
  method StandardizeEach(processed: seq<string>, stdDir: map<string, Value>, attempt: string -> StandardizeOutcome)
    returns (run: StandardizeRun)
    ensures run.complete
    ensures run.outcomes == StandardizeAll(processed, stdDir, attempt)
    ensures run.standardized == Select(processed, StandardizedFlags(run.outcomes))
    ensures run.stdDir == Replay(stdDir, processed, StandardizeWrites(run.outcomes), |processed|)
    ensures run.count == |run.standardized| <= |processed|
  {
    run := StandardizeRun([], [], 0, stdDir, true);
    var i := 0;
    while i < |processed|
      invariant 0 <= i <= |processed|
      invariant StandardizedUpTo(processed, stdDir, attempt, run, i)
    {
      run := StandardizeNext(processed, stdDir, attempt, run, i);
      i := i + 1;
    }
    assert processed[..i] == processed;
  }

  /** The state of the standardize loop after the first `i` artifacts. */
  predicate StandardizedUpTo(processed: seq<string>, stdDir: map<string, Value>, attempt: string -> StandardizeOutcome,
                             run: StandardizeRun, i: nat)
    requires i <= |processed|
  {
    && run.complete
    && run.outcomes == StandardizeAll(processed[..i], stdDir, attempt)
    && run.standardized == Select(processed[..i], StandardizedFlags(run.outcomes))
    && run.count == |run.standardized|
    && run.stdDir == Replay(stdDir, processed, StandardizeWrites(run.outcomes), i)
  }

  /** One pass of the standardize loop: reuse the output if it exists, otherwise attempt
      the artifact, and record the outcome. */
  method StandardizeNext(processed: seq<string>, stdDir: map<string, Value>, attempt: string -> StandardizeOutcome,
                         run: StandardizeRun, i: nat)
    returns (run': StandardizeRun)
    requires i < |processed|
    requires StandardizedUpTo(processed, stdDir, attempt, run, i)
    ensures StandardizedUpTo(processed, stdDir, attempt, run', i + 1)
  {
    var path := processed[i];
    var o := if path in run.stdDir then Reused else attempt(path);
    StandardizeStep(processed, stdDir, attempt, run.outcomes, i);
    var dir := if o.Standardized? then run.stdDir[path := o.record] else run.stdDir;
    var standardized := if o.Reused? || o.Standardized? then run.standardized + [path] else run.standardized;
    run' := StandardizeRun(run.outcomes + [o], standardized, |standardized|, dir, true);
  }

  /** The standardized record of an upload names that upload: the parse stage stamps the
      upload's name into the artifact and the standardize stage forwards it. */
  lemma ProvenanceForwarded(u: Upload, supported: set<string>, parse: Upload -> Option<Value>, stamp: string,
                            parsedDir: map<string, Value>, llm: (Value, Value) -> Option<Value>, stamp': string)
    requires ParseFile(u, supported, parse, stamp).Parsed?
    requires ArtifactName(u.name) in parsedDir
    requires parsedDir[ArtifactName(u.name)] == ParseFile(u, supported, parse, stamp).record
    ensures var r := StandardizeFresh(ArtifactName(u.name), parsedDir, llm, stamp');
      r.Standardized? ==> Get(r.record.fields, "original_filename") == Some(Str(u.name))
  {
  }

  // ---------------------------------------------------------------------------
  // Validate-and-repair stage (main.py:315-379)
  // ---------------------------------------------------------------------------

  datatype RepairOutcome =
    | Kept                       // the name is valid
    | CheckFailed                // the record cannot be read, or checking its name raised
    | OriginalMissing            // no upload has the record's stem: reported, left as is
    | ReparseEmpty               // the OCR parser returned nothing: reported, left as is
    | RepairFailed               // re-parsing or re-standardizing raised: reported, left as is
    | Repaired(record: Value)    // the re-standardized record replaces the old one

  /** The entries the stage counts as reprocessed: every record the name rule sent to
      repair, whether or not the repair went through. */
  predicate Attempted(o: RepairOutcome) {
    o.OriginalMissing? || o.ReparseEmpty? || o.RepairFailed? || o.Repaired?
  }

  /** Re-parse the original upload of a record with the OCR parser and standardize the
      result again (main.py:338-372). */
  function Reprocess(u: Upload, ocr: Upload -> Option<Value>, llm: (Value, Value) -> Option<Value>, stamp: string, ready: bool): (r: RepairOutcome)
    ensures r.ReparseEmpty? || r.RepairFailed? || r.Repaired?
    ensures r.ReparseEmpty? <==> ocr(u).Some? && !Truthy(ocr(u).value)
    ensures r.Repaired? <==>
      && ready && ocr(u).Some? && ocr(u).value.Dict? && Truthy(ocr(u).value)
      && var out := llm(Content(ocr(u).value.fields), Links(ocr(u).value.fields));
      && out.Some? && out.value.Dict?
    ensures r.Repaired? ==>
      && var out := llm(Content(ocr(u).value.fields), Links(ocr(u).value.fields)).value;
      && r.record.Dict?
      && Get(r.record.fields, "original_filename") == Some(Str(u.name))
      && Get(r.record.fields, "source_file") == Some(Str(u.name))
      && Get(r.record.fields, "timestamp") == Some(Str(stamp))
      && forall k :: k != "timestamp" && k != "source_file" && k != "original_filename" ==>
           Get(r.record.fields, k) == Get(out.fields, k)
  {
    if ocr(u).None? then RepairFailed
    else
      var parsed := ocr(u).value;
      if !Truthy(parsed) then ReparseEmpty
      else if !ready || !parsed.Dict? then RepairFailed
      else
        var out := llm(Content(parsed.fields), Links(parsed.fields));
        if out.Some? && out.value.Dict? then
          Repaired(StandardizedRecord(out.value.fields, stamp, u.name, Some(Str(u.name))))
        else RepairFailed
  }

  /** The fate of one standardized record, given what its file holds (`None` if the file
      is missing): kept exactly when its name is valid, reported exactly when it cannot be
      read or checked, and sent to repair exactly when the name needs it; a repair goes to
      the first upload sharing the record's stem, and is reported when there is none. */
  function RepairFile(path: string, current: Option<Value>, uploads: seq<Upload>,
                      ocr: Upload -> Option<Value>, llm: (Value, Value) -> Option<Value>, stamp: string, ready: bool): (r: RepairOutcome)
    ensures r.Kept? <==> current.Some? && CheckRecord(current.value) == Valid
    ensures r.CheckFailed? <==> current.None? || CheckRecord(current.value) == CheckError
    ensures Attempted(r) <==> current.Some? && CheckRecord(current.value) == NeedsRepair
    ensures r.OriginalMissing? <==> Attempted(r) && FindOriginal(uploads, Stem(path)).None?
    ensures Attempted(r) && !r.OriginalMissing? ==>
      FindOriginal(uploads, Stem(path)).Some? &&
      r == Reprocess(uploads[FindOriginal(uploads, Stem(path)).value], ocr, llm, stamp, ready)
  {
    match current
    case None => CheckFailed
    case Some(doc) =>
      match CheckRecord(doc)
      case Valid => Kept
      case CheckError => CheckFailed
      case NeedsRepair =>
        match FindOriginal(uploads, Stem(path))
        case None => OriginalMissing
        case Some(k) => Reprocess(uploads[k], ocr, llm, stamp, ready)
  }

  /** Which entries the stage counts as reprocessed. */
  function AttemptedFlags(os: seq<RepairOutcome>): (r: seq<bool>)
    ensures |r| == |os|
    ensures forall i :: 0 <= i < |os| ==> r[i] == Attempted(os[i])
  {
    seq(|os|, i requires 0 <= i < |os| => Attempted(os[i]))
  }

  /** What the stage writes for each entry. */
  function RepairWrites(os: seq<RepairOutcome>): (r: seq<Option<Value>>)
    ensures |r| == |os|
    ensures forall i :: 0 <= i < |os| ==> r[i] == if os[i].Repaired? then Some(os[i].record) else None
  {
    seq(|os|, i requires 0 <= i < |os| => if os[i].Repaired? then Some(os[i].record) else None)
  }

  /** What the stage does with each record. */
  function RepairWith(uploads: seq<Upload>, ocr: Upload -> Option<Value>, llm: (Value, Value) -> Option<Value>,
                      stamp: string, ready: bool): (string, Option<Value>) -> RepairOutcome {
    (path, current) => RepairFile(path, current, uploads, ocr, llm, stamp, ready)
  }

  /** The fate of every standardized artifact of a batch, in order: each is judged on
      what its file holds when it is reached. */
  function RepairAll(files: seq<string>, stdDir: map<string, Value>, repair: (string, Option<Value>) -> RepairOutcome): (r: seq<RepairOutcome>)
    ensures |r| == |files|
    decreases |files|
  {
    if files == [] then []
    else
      var n := |files| - 1;
      var prev := RepairAll(files[..n], stdDir, repair);
      prev + [repair(files[n], Lookup(Replay(stdDir, files, RepairWrites(prev), n), files[n]))]
  }

  lemma {:induction false} RepairAllAt(files: seq<string>, stdDir: map<string, Value>, repair: (string, Option<Value>) -> RepairOutcome, i: nat)
    requires i < |files|
    ensures var r := RepairAll(files, stdDir, repair);
      r[i] == repair(files[i], Lookup(Replay(stdDir, files, RepairWrites(r), i), files[i]))
    decreases |files|
  {
    var r := RepairAll(files, stdDir, repair);
    var n := |files| - 1;
    var prev := RepairAll(files[..n], stdDir, repair);
    assert RepairWrites(r)[..i] == RepairWrites(prev)[..i];
    ReplayPrefix(stdDir, files, RepairWrites(r), RepairWrites(prev), i);
    if i < n {
      RepairAllAt(files[..n], stdDir, repair, i);
      assert files[..n][..i] == files[..i];
      ReplayPathsPrefix(stdDir, files[..n], files, RepairWrites(prev), i);
    }
  }

  /** One more record of the validate loop: its outcome extends the outcomes and its
      write extends the directory. */
  lemma RepairStep(files: seq<string>, stdDir: map<string, Value>, repair: (string, Option<Value>) -> RepairOutcome,
                   outcomes: seq<RepairOutcome>, i: nat)
    requires i < |files|
    requires outcomes == RepairAll(files[..i], stdDir, repair)
    ensures var d := Replay(stdDir, files, RepairWrites(outcomes), i);
      var o := repair(files[i], Lookup(d, files[i]));
      && outcomes + [o] == RepairAll(files[..i + 1], stdDir, repair)
      && Replay(stdDir, files, RepairWrites(outcomes + [o]), i + 1) == (if o.Repaired? then d[files[i] := o.record] else d)
  {
    var d := Replay(stdDir, files, RepairWrites(outcomes), i);
    var o := repair(files[i], Lookup(d, files[i]));
    RepairWritesSnoc(files, stdDir, outcomes, o, i);
    RepairAllSnoc(files, stdDir, repair, outcomes, i);
  }

  /** The directory after one more record: the repaired record, if any, is written. */
  lemma RepairWritesSnoc(files: seq<string>, stdDir: map<string, Value>, outcomes: seq<RepairOutcome>, o: RepairOutcome, i: nat)
    requires |outcomes| == i < |files|
    ensures var d := Replay(stdDir, files, RepairWrites(outcomes), i);
      Replay(stdDir, files, RepairWrites(outcomes + [o]), i + 1) == (if o.Repaired? then d[files[i] := o.record] else d)
  {
    ghost var w: Option<Value> := if o.Repaired? then Some(o.record) else None;
    ReplaySnoc(stdDir, files, RepairWrites(outcomes), w);
    assert RepairWrites(outcomes + [o]) == RepairWrites(outcomes) + [w];
  }

  /** The fates of one more record: the earlier fates, then the new record's fate given
      what its file holds after the earlier records. */
  lemma RepairAllSnoc(files: seq<string>, stdDir: map<string, Value>, repair: (string, Option<Value>) -> RepairOutcome,
                      outcomes: seq<RepairOutcome>, i: nat)
    requires i < |files|
    requires outcomes == RepairAll(files[..i], stdDir, repair)
    ensures outcomes + [repair(files[i], Lookup(Replay(stdDir, files, RepairWrites(outcomes), i), files[i]))] ==
      RepairAll(files[..i + 1], stdDir, repair)
  {
    var longer := files[..i + 1];
    assert longer[..i] == files[..i];
    ReplayPathsPrefix(stdDir, longer, files, RepairWrites(outcomes), i);
    assert longer[i] == files[i];
    assert RepairAll(longer, stdDir, repair) ==
      RepairAll(longer[..i], stdDir, repair) + [repair(longer[i], Lookup(Replay(stdDir, longer, RepairWrites(outcomes), i), longer[i]))];
  }

  /** One more record counts one more attempt exactly when the name rule sent it to
      repair. */
  lemma AttemptedStep(outcomes: seq<RepairOutcome>, o: RepairOutcome)
    ensures Count(AttemptedFlags(outcomes + [o])) == Count(AttemptedFlags(outcomes)) + (if Attempted(o) then 1 else 0)
  {
    assert AttemptedFlags(outcomes + [o])[..|outcomes|] == AttemptedFlags(outcomes);
  }

  /** A repair only rewrites a file that exists: the stage never adds or removes files. */
  lemma RepairKeepsFiles(files: seq<string>, stdDir: map<string, Value>, uploads: seq<Upload>,
                         ocr: Upload -> Option<Value>, llm: (Value, Value) -> Option<Value>, stamp: string, ready: bool)
    ensures var r := RepairAll(files, stdDir, RepairWith(uploads, ocr, llm, stamp, ready));
      Replay(stdDir, files, RepairWrites(r), |files|).Keys == stdDir.Keys
  {
    var repair := RepairWith(uploads, ocr, llm, stamp, ready);
    assert forall p, c :: repair(p, c).Repaired? ==> c.Some?;
    KeysUpTo(files, stdDir, repair, |files|);
  }

  /** When a record is only ever repaired in a file that exists, the first `k` records of
      a batch leave the directory with the files it had. */
  lemma {:induction false} KeysUpTo(files: seq<string>, stdDir: map<string, Value>, repair: (string, Option<Value>) -> RepairOutcome, k: nat)
    requires k <= |files|
    requires forall p, c :: repair(p, c).Repaired? ==> c.Some?
    ensures Replay(stdDir, files, RepairWrites(RepairAll(files, stdDir, repair)), k).Keys == stdDir.Keys
  {
    if k > 0 {
      KeysUpTo(files, stdDir, repair, k - 1);
      RepairAllAt(files, stdDir, repair, k - 1);
    }
  }

  /** A record listed once is judged on its record as standardized, and ends up either as
      it was or as its one repair result, which is kept whether or not it passes the name
      rule. A record listed twice, because two uploads share its stem, is judged twice
      (see `SharedStemRepairedTwice`). */
  lemma RepairOnce(files: seq<string>, stdDir: map<string, Value>, repair: (string, Option<Value>) -> RepairOutcome, i: nat)
    requires i < |files|
    requires forall j :: 0 <= j < |files| && j != i ==> files[j] != files[i]
    ensures var r := RepairAll(files, stdDir, repair);
      && r[i] == repair(files[i], Lookup(stdDir, files[i]))
      && Lookup(Replay(stdDir, files, RepairWrites(r), |files|), files[i]) ==
           if r[i].Repaired? then Some(r[i].record) else Lookup(stdDir, files[i])
  {
    var r := RepairAll(files, stdDir, repair);
    var w := RepairWrites(r);
    RepairAllAt(files, stdDir, repair, i);
    assert forall k :: 0 <= k < |files| && k != i ==> !Writes(files, w, k, files[i]);
    UnwrittenUnchanged(stdDir, files, w, i, files[i]);
    if r[i].Repaired? {
      LastWriteWins(stdDir, files, w, |files|, i);
    } else {
      UnwrittenUnchanged(stdDir, files, w, |files|, files[i]);
    }
  }

  datatype ValidateRun = ValidateRun(
    outcomes: seq<RepairOutcome>,   // one per standardized artifact, in order
    reprocessed: nat,               // `reprocessed_count`
    stdDir: map<string, Value>)     // the standardized-output directory afterwards

  /** `validate_and_reprocess_resumes`: the records are handled in order with the fates
      `RepairAll` gives them (see `RepairAllAt`), the count is the number of records the
      name rule sent to repair, including those whose repair failed, and the directory
      receives exactly the repaired records. */
  method ValidateAndReprocess(files: seq<string>, stdDir: map<string, Value>, uploads: seq<Upload>,
                              ocr: Upload -> Option<Value>, llm: (Value, Value) -> Option<Value>, stamp: string, ready: bool)
    returns (run: ValidateRun)
    ensures run.outcomes == RepairAll(files, stdDir, RepairWith(uploads, ocr, llm, stamp, ready))
    ensures run.stdDir == Replay(stdDir, files, RepairWrites(run.outcomes), |files|)
    ensures run.reprocessed == Count(AttemptedFlags(run.outcomes)) <= |files|
  {
    run := RepairEach(files, stdDir, RepairWith(uploads, ocr, llm, stamp, ready));
  }

  /** The loop of the validate stage, for any way of judging a record: the records get the
      fates `RepairAll` gives them, the count is the number of records sent to repair, and
      the directory receives exactly the repaired records. */
  method RepairEach(files: seq<string>, stdDir: map<string, Value>, repair: (string, Option<Value>) -> RepairOutcome)
    returns (run: ValidateRun)
    ensures run.outcomes == RepairAll(files, stdDir, repair)
    ensures run.stdDir == Replay(stdDir, files, RepairWrites(run.outcomes), |files|)
    ensures run.reprocessed == Count(AttemptedFlags(run.outcomes)) <= |files|
  {
    run := ValidateRun([], 0, stdDir);
    var i := 0;
    while i < |files|
      invariant 0 <= i <= |files|
      invariant RepairedUpTo(files, stdDir, repair, run, i)
    {
      run := RepairNext(files, stdDir, repair, run, i);
      i := i + 1;
    }
    assert files[..i] == files;
  }

  /** The state of the validate loop after the first `i` records. */
  predicate RepairedUpTo(files: seq<string>, stdDir: map<string, Value>, repair: (string, Option<Value>) -> RepairOutcome,
                         run: ValidateRun, i: nat)
    requires i <= |files|
  {
    && run.outcomes == RepairAll(files[..i], stdDir, repair)
    && run.reprocessed == Count(AttemptedFlags(run.outcomes))
    && run.stdDir == Replay(stdDir, files, RepairWrites(run.outcomes), i)
  }

  /** One pass of the validate loop: judge the next record on what its file holds now,
      count it when it was sent to repair, and write the repaired record. */
  method RepairNext(files: seq<string>, stdDir: map<string, Value>, repair: (string, Option<Value>) -> RepairOutcome,
                    run: ValidateRun, i: nat)
    returns (run': ValidateRun)
    requires i < |files|
    requires RepairedUpTo(files, stdDir, repair, run, i)
    ensures RepairedUpTo(files, stdDir, repair, run', i + 1)
  {
    var path := files[i];
    var o := repair(path, Lookup(run.stdDir, path));
    RepairStep(files, stdDir, repair, run.outcomes, i);
    AttemptedStep(run.outcomes, o);
    var dir := if o.Repaired? then run.stdDir[path := o.record] else run.stdDir;
    run' := ValidateRun(run.outcomes + [o], run.reprocessed + (if Attempted(o) then 1 else 0), dir);
  }

  /** A record listed twice is judged first on its contents as standardized, then on what
      the first judgement left in its file. */
  lemma RepairListedTwice(p: string, stdDir: map<string, Value>, repair: (string, Option<Value>) -> RepairOutcome)
    ensures var r := RepairAll([p, p], stdDir, repair);
      var first := repair(p, Lookup(stdDir, p));
      r == [first, repair(p, if first.Repaired? then Some(first.record) else Lookup(stdDir, p))]
  {
    var files := [p, p];
    var r := RepairAll(files, stdDir, repair);
    RepairAllAt(files, stdDir, repair, 0);
    RepairAllAt(files, stdDir, repair, 1);
    if r[0].Repaired? {
      LastWriteWins(stdDir, files, RepairWrites(r), 1, 0);
    } else {
      UnwrittenUnchanged(stdDir, files, RepairWrites(r), 1, p);
    }
  }

  /** The uploads, collaborators and record of the shared-stem scenario: `cv.pdf` and
      `cv.docx` both standardize to `cv.json`, whose record has no name; the OCR parser
      returns text and the backend an answer without a name. */
  const sharedUploads := [Upload("cv.pdf", []), Upload("cv.docx", [])]
  const sharedOcr := (u: Upload) => Some(Dict([Field("content", Str("resume"))]))
  const sharedLlm := (c: Value, l: Value) => Some(Dict([]))

  /** In the shared-stem scenario the repair of `cv.json` goes to `cv.pdf`. */
  lemma SharedOriginal()
    ensures FindOriginal(sharedUploads, Stem("cv.json")) == Some(0)
  {
    StemOfDotted("cv", "json");
    assert "cv" + "." + "json" == "cv.json";
    StemOfDotted("cv", "pdf");
    assert "cv" + "." + "pdf" == "cv.pdf";
  }

  /** In the shared-stem scenario re-processing `cv.pdf` gives a record without a name. */
  lemma SharedReprocess()
    ensures var o := Reprocess(sharedUploads[0], sharedOcr, sharedLlm, "t", true);
      o.Repaired? && o.record.Dict? && Get(o.record.fields, "name").None?
  {
    var u := sharedUploads[0];
    assert sharedOcr(u) == Some(Dict([Field("content", Str("resume"))]));
    var parsed := sharedOcr(u).value;
    assert sharedLlm(Content(parsed.fields), Links(parsed.fields)) == Some(Dict([]));
  }

  /** In the shared-stem scenario every judgement of `cv.json` whose file holds a record
      without a name repairs it into another record without a name. */
  lemma SharedRepairKeepsNameless(doc: Value)
    requires doc.Dict? && Get(doc.fields, "name").None?
    ensures var o := RepairFile("cv.json", Some(doc), sharedUploads, sharedOcr, sharedLlm, "t", true);
      o.Repaired? && o.record.Dict? && Get(o.record.fields, "name").None?
  {
    SharedOriginal();
    SharedReprocess();
    assert CheckRecord(doc) == NeedsRepair;
  }

  /** In the shared-stem scenario both uploads name the artifact `cv.json`. */
  lemma SharedArtifacts()
    ensures Artifacts(sharedUploads) == ["cv.json", "cv.json"]
  {
    StemOfDotted("cv", "pdf");
    assert "cv" + "." + "pdf" == "cv.pdf";
    StemOfDotted("cv", "docx");
    assert "cv" + "." + "docx" == "cv.docx";
    assert ArtifactName("cv.pdf") == "cv" + ".json" == "cv.json";
    assert ArtifactName("cv.docx") == "cv" + ".json";
    var a := Artifacts(sharedUploads);
    assert |a| == 2 && a[0] == "cv.json" && a[1] == "cv.json";
  }

  /** The supported types, parser and directories of the shared-stem scenario: both
      uploads parse to the same text; the parse stage writes `cv.json` twice and the
      standardize stage starts from an empty output directory. */
  const sharedSupported: set<string> := {".pdf", ".docx"}
  const sharedParse := (u: Upload) => Some(Dict([Field("content", Str("resume"))]))
  const sharedParsed := ParseAll(sharedUploads, ParseWith(sharedSupported, sharedParse, "t"))
  const sharedParsedDir := Replay(map[], Artifacts(sharedUploads), ParseWrites(sharedParsed), 2)
  const sharedStandardized := StandardizeAll(["cv.json", "cv.json"], map[], FreshAttempt(sharedParsedDir, sharedLlm, "t"))
  const sharedStdDir := Replay(map[], ["cv.json", "cv.json"], StandardizeWrites(sharedStandardized), 2)

  /** Two uploads that both parse and share an artifact name: the parse stage lists the
      artifact twice, and the artifact holds the later upload's record. */
  lemma ParsedTwice(a: Upload, b: Upload, fate: Upload -> ParseOutcome)
    requires fate(a).Parsed? && fate(b).Parsed?
    requires ArtifactName(a.name) == ArtifactName(b.name)
    ensures var os := ParseAll([a, b], fate);
      var n := ArtifactName(a.name);
      && Select(Artifacts([a, b]), ParsedFlags(os)) == [n, n]
      && Lookup(Replay(map[], Artifacts([a, b]), ParseWrites(os), 2), n) == Some(fate(b).record)
  {
    ParseAllAt([a, b], fate, 0);
    ParseAllAt([a, b], fate, 1);
    var os := ParseAll([a, b], fate);
    var flags := ParsedFlags(os);
    assert flags == [true, true];
    SelectAll(Artifacts([a, b]), flags);
    LastWriteWins(map[], Artifacts([a, b]), ParseWrites(os), 2, 1);
  }

  /** An artifact listed twice, into an empty output directory, gets its fresh attempt
      once: the second entry reuses what a successful first attempt wrote, and otherwise
      meets the same fate again. */
  lemma StandardizeListedTwice(p: string, attempt: string -> StandardizeOutcome)
    requires !attempt(p).Reused?
    ensures var o := attempt(p);
      StandardizeAll([p, p], map[], attempt) == [o, if o.Standardized? then Reused else o]
  {
    var o := attempt(p);
    var prev := StandardizeAll([p], map[], attempt);
    assert [p, p][..1] == [p];
    assert prev == [o];
    var w := StandardizeWrites(prev);
    assert Replay(map[], [p, p], w, 1) == if o.Standardized? then map[p := o.record] else map[];
  }

  /** An artifact listed twice whose first attempt standardizes it: the standardize stage
      lists it twice, and it holds the first attempt's record. */
  lemma StandardizedTwice(p: string, attempt: string -> StandardizeOutcome)
    requires attempt(p).Standardized?
    ensures var os := StandardizeAll([p, p], map[], attempt);
      && os == [attempt(p), Reused]
      && Select([p, p], StandardizedFlags(os)) == [p, p]
      && Lookup(Replay(map[], [p, p], StandardizeWrites(os), 2), p) == Some(attempt(p).record)
  {
    StandardizeListedTwice(p, attempt);
    var os := StandardizeAll([p, p], map[], attempt);
    var flags := StandardizedFlags(os);
    assert flags == [true, true];
    SelectAll([p, p], flags);
    LastWriteWins(map[], [p, p], StandardizeWrites(os), 2, 0);
  }

  /** Every judgement that repaired its record counts. */
  lemma AllRepairedCounted(r: seq<RepairOutcome>)
    requires forall i :: 0 <= i < |r| ==> r[i].Repaired?
    ensures Count(AttemptedFlags(r)) == |r|
  {
    SelectAll(r, AttemptedFlags(r));
  }

  /** Two judgements that both repaired their records both count. */
  lemma BothRepairedCounted(a: RepairOutcome, b: RepairOutcome)
    requires a.Repaired? && b.Repaired?
    ensures Count(AttemptedFlags([a, b])) == 2
  {
    AllRepairedCounted([a, b]);
  }

  /** Each upload of the shared-stem scenario parses, keeping the parser's text. */
  lemma SharedUploadParses(i: nat)
    requires i < 2
    ensures var o := ParseFile(sharedUploads[i], sharedSupported, sharedParse, "t");
      o.Parsed? && Content(o.record.fields) == Str("resume")
  {
    if i == 0 {
      StemOfDotted("cv", "pdf");
      assert "cv" + "." + "pdf" == "cv.pdf";
      assert Lower(".pdf") == ".pdf";
    } else {
      StemOfDotted("cv", "docx");
      assert "cv" + "." + "docx" == "cv.docx";
      assert Lower(".docx") == ".docx";
    }
    assert Truthy(Dict([Field("content", Str("resume"))]));
  }

  /** In the shared-stem scenario both uploads parse, so the parse stage lists `cv.json`
      twice, and `cv.json` holds the later upload's record, whose text is not blank. */
  lemma SharedParseListsTwice()
    ensures Select(Artifacts(sharedUploads), ParsedFlags(sharedParsed)) == ["cv.json", "cv.json"]
    ensures Standardizable("cv.json", sharedParsedDir)
  {
    var fate := ParseWith(sharedSupported, sharedParse, "t");
    var a, b := sharedUploads[0], sharedUploads[1];
    assert sharedUploads == [a, b];
    SharedUploadParses(0);
    SharedUploadParses(1);
    SharedArtifacts();
    assert ArtifactName(a.name) == Artifacts(sharedUploads)[0];
    assert ArtifactName(b.name) == Artifacts(sharedUploads)[1];
    ParsedTwice(a, b, fate);
    assert "resume"[0] == 'r';
  }

  /** In the shared-stem scenario the first entry of `cv.json` is standardized afresh, into
      a record without a name, and the second reuses it: the standardize stage lists
      `cv.json` twice. */
  lemma SharedStandardizeListsTwice()
    ensures Select(["cv.json", "cv.json"], StandardizedFlags(sharedStandardized)) == ["cv.json", "cv.json"]
    ensures "cv.json" in sharedStdDir && sharedStdDir["cv.json"].Dict? && Get(sharedStdDir["cv.json"].fields, "name").None?
  {
    var attempt := FreshAttempt(sharedParsedDir, sharedLlm, "t");
    SharedParseListsTwice();
    var raw := sharedParsedDir["cv.json"].fields;
    assert sharedLlm(Content(raw), Links(raw)) == Some(Dict([]));
    assert attempt("cv.json").Standardized?;
    StandardizedTwice("cv.json", attempt);
  }

  /** Two uploads sharing a stem share an artifact: `cv.pdf` and `cv.docx` both parse into
      `cv.json`, the standardize stage, starting from an empty output directory, lists it
      twice (freshly standardized, then reused), and the validate loop judges the record
      twice: a record whose repair does not give it a valid name is repaired, and counted,
      a second time. */
  lemma SharedStemRepairedTwice()
    ensures var files := ["cv.json", "cv.json"];
      var r := RepairAll(files, sharedStdDir, RepairWith(sharedUploads, sharedOcr, sharedLlm, "t", true));
      && Select(Artifacts(sharedUploads), ParsedFlags(sharedParsed)) == files
      && Select(files, StandardizedFlags(sharedStandardized)) == files
      && r[0].Repaired? && r[1].Repaired?
      && Count(AttemptedFlags(r)) == 2
  {
    SharedParseListsTwice();
    SharedStandardizeListsTwice();
    SharedJudgements(sharedStdDir);
  }

  /** In the shared-stem scenario both judgements of a nameless `cv.json` repair it, and
      both count. */
  lemma SharedJudgements(stdDir: map<string, Value>)
    requires "cv.json" in stdDir && stdDir["cv.json"].Dict? && Get(stdDir["cv.json"].fields, "name").None?
    ensures var r := RepairAll(["cv.json", "cv.json"], stdDir, RepairWith(sharedUploads, sharedOcr, sharedLlm, "t", true));
      |r| == 2 && r[0].Repaired? && r[1].Repaired? && Count(AttemptedFlags(r)) == 2
  {
    var repair := RepairWith(sharedUploads, sharedOcr, sharedLlm, "t", true);
    var doc := stdDir["cv.json"];
    RepairListedTwice("cv.json", stdDir, repair);
    SharedRepairKeepsNameless(doc);
    var first := repair("cv.json", Some(doc));
    SharedRepairKeepsNameless(first.record);
    BothRepairedCounted(first, repair("cv.json", Some(first.record)));
  }

  /** The position of the first occurrence of `x`. */
  function FirstIndex(xs: seq<string>, x: string): (k: nat)
    requires x in xs
    ensures k < |xs| && xs[k] == x
    ensures forall j :: 0 <= j < k ==> xs[j] != x
  {
    if xs[0] == x then 0
    else
      var k := 1 + FirstIndex(xs[1..], x);
      assert forall j :: 1 <= j < k ==> xs[j] == xs[1..][j - 1];
      k
  }

  /** Extending a list does not move the first occurrence of anything it already held. */
  lemma FirstIndexPrefix(xs: seq<string>, n: nat, x: string)
    requires n <= |xs| && x in xs[..n]
    ensures FirstIndex(xs, x) == FirstIndex(xs[..n], x)
  {
    var k := FirstIndex(xs[..n], x);
    var k' := FirstIndex(xs, x);
    assert xs[k] == x;
  }

  /** The artifacts without repeats, each where it first appears: the same members, no
      repeats, and in the order of their first appearance. */
  function Distinct(files: seq<string>): (r: seq<string>)
    ensures forall p :: p in r <==> p in files
    ensures forall i, j :: 0 <= i < j < |r| ==> r[i] != r[j]
    ensures forall i, j :: 0 <= i < j < |r| ==> FirstIndex(files, r[i]) < FirstIndex(files, r[j])
    ensures |r| <= |files|
    decreases |files|
  {
    if files == [] then []
    else
      var n := |files| - 1;
      var prev := Distinct(files[..n]);
      assert files == files[..n] + [files[n]];
      forall x | x in prev
        ensures FirstIndex(files, x) == FirstIndex(files[..n], x) < n
      {
        FirstIndexPrefix(files, n, x);
      }
      if files[n] in prev then prev
      else
        assert FirstIndex(files, files[n]) == n;
        prev + [files[n]]
  }

  /** `validate_and_reprocess_resumes` corrected to judge each standardized record once:
      the loop runs over the artifacts without repeats, so the records sent to repair
      number at most the distinct records, and each ends as it was or as its one repair
      result (see `RepairDistinctOnce`). */
  method ValidateAndReprocessOnce(files: seq<string>, stdDir: map<string, Value>, uploads: seq<Upload>,
                                  ocr: Upload -> Option<Value>, llm: (Value, Value) -> Option<Value>, stamp: string, ready: bool)
    returns (run: ValidateRun)
    ensures run.outcomes == RepairAll(Distinct(files), stdDir, RepairWith(uploads, ocr, llm, stamp, ready))
    ensures run.stdDir == Replay(stdDir, Distinct(files), RepairWrites(run.outcomes), |Distinct(files)|)
    ensures run.reprocessed == Count(AttemptedFlags(run.outcomes)) <= |Distinct(files)|
  {
    run := RepairEach(Distinct(files), stdDir, RepairWith(uploads, ocr, llm, stamp, ready));
  }

  /** Over the artifacts without repeats, every record is judged on its contents as
      standardized, and ends as it was or as its single repair result. */
  lemma RepairDistinctOnce(files: seq<string>, stdDir: map<string, Value>, repair: (string, Option<Value>) -> RepairOutcome, i: nat)
    requires i < |Distinct(files)|
    ensures var d := Distinct(files);
      var r := RepairAll(d, stdDir, repair);
      && r[i] == repair(d[i], Lookup(stdDir, d[i]))
      && Lookup(Replay(stdDir, d, RepairWrites(r), |d|), d[i]) == if r[i].Repaired? then Some(r[i].record) else Lookup(stdDir, d[i])
  {
    RepairOnce(Distinct(files), stdDir, repair, i);
  }

  /** With the repeats removed, the record two uploads share is repaired, and counted,
      once. */
  lemma SharedStemRepairedOnce()
    ensures var r := RepairAll(Distinct(["cv.json", "cv.json"]), sharedStdDir,
                               RepairWith(sharedUploads, sharedOcr, sharedLlm, "t", true));
      && |r| == 1 && r[0].Repaired?
      && Count(AttemptedFlags(r)) == 1
  {
    SharedDistinct();
    SharedStandardizeListsTwice();
    SharedJudgementOnce(sharedStdDir);
    AllRepairedCounted(RepairAll(["cv.json"], sharedStdDir, RepairWith(sharedUploads, sharedOcr, sharedLlm, "t", true)));
  }

  /** Without repeats, the shared-stem scenario lists `cv.json` once. */
  lemma SharedDistinct()
    ensures Distinct(["cv.json", "cv.json"]) == ["cv.json"]
  {
    var files := ["cv.json", "cv.json"];
    assert files[..1] == ["cv.json"];
    assert Distinct(["cv.json"]) == ["cv.json"] by {
      assert ["cv.json"][..0] == [];
    }
  }

  /** Judged once, a nameless `cv.json` is repaired. */
  lemma SharedJudgementOnce(stdDir: map<string, Value>)
    requires "cv.json" in stdDir && stdDir["cv.json"].Dict? && Get(stdDir["cv.json"].fields, "name").None?
    ensures var r := RepairAll(["cv.json"], stdDir, RepairWith(sharedUploads, sharedOcr, sharedLlm, "t", true));
      |r| == 1 && r[0].Repaired?
  {
    var repair := RepairWith(sharedUploads, sharedOcr, sharedLlm, "t", true);
    var doc := stdDir["cv.json"];
    SharedRepairKeepsNameless(doc);
    RepairAllAt(["cv.json"], stdDir, repair, 0);
  }

  // ---------------------------------------------------------------------------
  // Store-upload stage (main.py:278-313)
  // ---------------------------------------------------------------------------

  /** Which standardized artifacts reach the store: the file exists and the store's
      insert-or-update does not raise. */
  function StoredFlags(files: seq<string>, stdDir: map<string, Value>, insert: Value -> bool): (r: seq<bool>)
    ensures |r| == |files|
    ensures forall i :: 0 <= i < |files| ==> r[i] == (files[i] in stdDir && insert(stdDir[files[i]]))
  {
    seq(|files|, i requires 0 <= i < |files| => files[i] in stdDir && insert(stdDir[files[i]]))
  }

  datatype UploadRun = UploadRun(
    count: nat,                  // `uploaded_count`
    uploadedFiles: seq<string>,  // `uploaded_files` afterwards
    complete: bool)              // `db_upload_complete`

  /** `upload_to_mongodb` as written: the names of the stored artifacts are appended to
      whatever `uploaded_files` already held, because the stage never clears the list. */
  function UploadToMongoAsWritten(files: seq<string>, stdDir: map<string, Value>, insert: Value -> bool,
                                  ready: bool, before: seq<string>): (r: UploadRun)
    ensures !ready ==> r == UploadRun(0, before, false)
    ensures ready ==> r.complete && r.count <= |files|
    ensures ready ==> r.uploadedFiles == before + Select(files, StoredFlags(files, stdDir, insert))
    ensures ready ==> r.count == |Select(files, StoredFlags(files, stdDir, insert))|
  {
    if !ready then UploadRun(0, before, false)
    else
      var stored := Select(files, StoredFlags(files, stdDir, insert));
      UploadRun(|stored|, before + stored, true)
  }

  /** Running the pipeline twice over the same single upload reports two uploaded files:
      the list outgrows the batch. */
  lemma RepeatedUploadOvercounts()
    ensures var files := ["cv.json"];
      var stdDir := map["cv.json" := Dict([])];
      var insert := (v: Value) => true;
      var first := UploadToMongoAsWritten(files, stdDir, insert, true, []);
      var second := UploadToMongoAsWritten(files, stdDir, insert, true, first.uploadedFiles);
      second.count == 1 && |second.uploadedFiles| == 2 > |files|
  {
    var files := ["cv.json"];
    var stdDir := map["cv.json" := Dict([])];
    var insert := (v: Value) => true;
    var flags := StoredFlags(files, stdDir, insert);
    assert flags == [true];
    assert Select(files, flags) == files by {
      SelectAll(files, flags);
    }
  }

  /** `upload_to_mongodb` with the list cleared when the stage starts, as the parse and
      standardize stages clear theirs: afterwards the list names exactly the artifacts
      stored in this run, in order, and never more than the batch. */
  function UploadToMongo(files: seq<string>, stdDir: map<string, Value>, insert: Value -> bool, ready: bool): (r: UploadRun)
    ensures !ready ==> r == UploadRun(0, [], false)
    ensures ready ==> r.complete
    ensures ready ==> r.uploadedFiles == Select(files, StoredFlags(files, stdDir, insert))
    ensures r.count == |r.uploadedFiles| <= |files|
  {
    UploadToMongoAsWritten(files, stdDir, insert, ready, [])
  }

  /** Everything the corrected stage lists was stored in this run, and everything stored
      in this run is listed. */
  lemma UploadedAreStored(files: seq<string>, stdDir: map<string, Value>, insert: Value -> bool)
    ensures var r := UploadToMongo(files, stdDir, insert, true);
      && (forall p :: p in r.uploadedFiles ==> p in files && p in stdDir && insert(stdDir[p]))
      && (forall i :: 0 <= i < |files| && files[i] in stdDir && insert(stdDir[files[i]]) ==> files[i] in r.uploadedFiles)
  {
    SelectMembers(files, StoredFlags(files, stdDir, insert));
  }
}

=== FILE: strings.dfy ===
/** The few Python string operations the pipeline's decision rules rely on: whitespace
    splitting (`str.split()` with no argument), blank testing (`not s.strip()`), ASCII
    lower-casing and `sep.join(...)`. */
module Strings {

  /** The characters Python's `str.isspace` accepts; `split()` and `strip()` with no
      argument separate and trim on exactly these. */
  predicate IsSpace(c: char) {
    || ('\t' <= c <= '\r')
    || ('\U{1c}' <= c <= ' ')
    || c == '\U{85}' || c == '\U{a0}' || c == '\U{1680}'
    || ('\U{2000}' <= c <= '\U{200a}')
    || c == '\U{2028}' || c == '\U{2029}' || c == '\U{202f}' || c == '\U{205f}' || c == '\U{3000}'
  }

  /** `not s.strip()`: the string holds nothing but whitespace. */
  predicate Blank(s: string) {
    forall i :: 0 <= i < |s| ==> IsSpace(s[i])
  }

  /** The number of leading whitespace characters. */
  function LeadingSpaces(s: string): (n: nat)
    ensures n <= |s|
    ensures Blank(s[..n])
    ensures n < |s| ==> !IsSpace(s[n])
  {
    if s == [] || !IsSpace(s[0]) then 0
    else
      var n := 1 + LeadingSpaces(s[1..]);
      assert forall i :: 1 <= i < n ==> s[i] == s[1..][i - 1];
      n
  }

  /** The length of the run of non-whitespace characters that starts the string. */
  function WordLength(s: string): (n: nat)
    ensures n <= |s|
    ensures forall i :: 0 <= i < n ==> !IsSpace(s[i])
    ensures n < |s| ==> IsSpace(s[n])
  {
    if s == [] || IsSpace(s[0]) then 0
    else
      var n := 1 + WordLength(s[1..]);
      assert forall i :: 1 <= i < n ==> s[i] == s[1..][i - 1];
      n
  }

  /** `s.split()`: the maximal runs of non-whitespace characters, in order. */
  function Words(s: string): (ws: seq<string>)
    ensures forall j :: 0 <= j < |ws| ==> ws[j] != [] && forall i :: 0 <= i < |ws[j]| ==> !IsSpace(ws[j][i])
    ensures ws == [] <==> Blank(s)
    decreases |s|
  {
    if s == [] then []
    else if IsSpace(s[0]) then
      var ws := Words(s[1..]);
      assert Blank(s[1..]) ==> Blank(s) by {
        assert forall i :: 1 <= i < |s| ==> s[i] == s[1..][i - 1];
      }
      ws
    else
      var n := WordLength(s);
      [s[..n]] + Words(s[n..])
  }

  /** The first word of a string that is not blank starts after its leading whitespace
      and runs to the next whitespace character or the end. */
  lemma {:induction false} FirstWordPosition(s: string)
    requires !Blank(s)
    ensures Words(s) != []
    ensures var l := LeadingSpaces(s); Words(s)[0] == s[l..l + WordLength(s[l..])]
    decreases |s|
  {
    if IsSpace(s[0]) {
      var t := s[1..];
      BlankTail(s);
      FirstWordPosition(t);
      var l := LeadingSpaces(t);
      SliceOfTail(s, l, l + WordLength(t[l..]));
    } else {
      assert LeadingSpaces(s) == 0;
      assert s[0..] == s;
    }
  }

  /** Dropping a leading whitespace character keeps a string blank or not blank. */
  lemma BlankTail(s: string)
    requires s != [] && IsSpace(s[0])
    ensures Blank(s[1..]) <==> Blank(s)
  {
    assert forall i :: 1 <= i < |s| ==> s[i] == s[1..][i - 1];
  }

  /** Slices of the tail are the slices of the string one further on. */
  lemma SliceOfTail(s: string, i: nat, j: nat)
    requires i <= j < |s|
    ensures s[1..][i..] == s[i + 1..] && s[1..][i..j] == s[i + 1..j + 1]
  {
  }

  /** The first character that is not whitespace sits right after the leading whitespace. */
  lemma FirstNonSpaceIsLeading(s: string, i: nat)
    requires i < |s| && Blank(s[..i]) && !IsSpace(s[i])
    ensures i == LeadingSpaces(s)
  {
  }

  /** The first word is one character long exactly when the first character that is not
      whitespace is followed by whitespace or by the end of the string. */
  predicate FirstWordIsSingle(s: string) {
    exists i :: 0 <= i < |s| && Blank(s[..i]) && !IsSpace(s[i]) && (i + 1 == |s| || IsSpace(s[i + 1]))
  }

  /** `len(s.split()[0]) < 2` holds exactly when the first non-whitespace character of
      `s` stands alone. */
  lemma FirstWordShort(s: string)
    requires !Blank(s)
    ensures Words(s) != []
    ensures |Words(s)[0]| < 2 <==> FirstWordIsSingle(s)
  {
    FirstWordPosition(s);
    var l := LeadingSpaces(s);
    var t := s[l..];
    var n := WordLength(t);
    assert l < |s|;
    assert n >= 1 by {
      assert t[0] == s[l];
    }
    if |Words(s)[0]| < 2 {
      assert n == 1;
      assert l + 1 < |s| ==> IsSpace(s[l + 1]) by {
        if l + 1 < |s| {
          assert t[1] == s[l + 1];
        }
      }
      assert FirstWordIsSingle(s);
    }
    if FirstWordIsSingle(s) {
      var i :| 0 <= i < |s| && Blank(s[..i]) && !IsSpace(s[i]) && (i + 1 == |s| || IsSpace(s[i + 1]));
      FirstNonSpaceIsLeading(s, i);
      assert n == 1;
    }
  }

  /** ASCII lower-casing of one character. */
  function LowerChar(c: char): (r: char)
    ensures 'A' <= c <= 'Z' ==> 'a' <= r <= 'z' && r as int - c as int == 32
    ensures !('A' <= c <= 'Z') ==> r == c
  {
    if 'A' <= c <= 'Z' then (c as int + 32) as char else c
  }

  /** `s.lower()` on the ASCII letters. */
  function Lower(s: string): (r: string)
    ensures |r| == |s|
    ensures forall i :: 0 <= i < |s| ==> r[i] == LowerChar(s[i])
  {
    if s == [] then [] else [LowerChar(s[0])] + Lower(s[1..])
  }

  /** `sep.join(xs)`. */
  function Join(sep: string, xs: seq<string>): string {
    if xs == [] then ""
    else if |xs| == 1 then xs[0]
    else xs[0] + sep + Join(sep, xs[1..])
  }
}

=== FILE: wrappers.dfy ===
/** Optional values: what the program gets back as `None` from a lookup, a search or a collaborator. */
module Wrappers {

  datatype Option<+T> = None | Some(value: T)
}
